=== FILE: README.md ===
# Nexus front-end core in Dafny

Nexus is a React front-end for sharing research papers. Under its markup sits a set of small
decision functions and state transitions, and this project models those:

- the browse page's category and text filter, and its category sidebar;
- the landing page's whole-word sample search;
- the paper-detail data hook, with its fetch-outcome mapping and its category and user lookups;
- the detail card's display values, including the char-code hash that picks a header gradient;
- file-link resolution and the choice of document preview;
- the paper list's description truncation;
- the submission form's tag list, validation chain and upload handling;
- the authentication services and the session built on them, with the browser's local storage;
- the login form;
- the profile page's edit selection and its delete-by-id flow.

Every network call is an input to the model: `Fetch<T>` is `Ok(value)` or `Err(HttpError)`, and
`HttpError` carries the optional status, the server's `message` and `error` fields, and the
exception text. Where the code inspects the shape of a response body, the body is a `Json<T>`:
`null` or `undefined`, an array, an object with a `data` field, or another value of known
truthiness. Components are pure functions over immutable records. Event handlers are
transitions from one state record to the next.

Layout. There is one module per source file:

| module | source file |
|---|---|
| `Browser` | `src/pages/Browser.jsx` |
| `Sidebar` | `src/components/Sidebar.jsx` |
| `Hero` | `src/components/Hero.jsx` |
| `PaperData` | `src/hooks/usePaperData.js` |
| `PaperDetails` | `src/components/PaperDetails.jsx` |
| `SinglePage` | `src/pages/SinglePage.jsx` |
| `PaperList` | `src/components/PaperList.jsx` |
| `Submit` | `src/pages/Submit.jsx` |
| `AuthServices` | `src/services/authServices.js` |
| `AuthContext` | `src/context/AuthContext.jsx` |
| `LoginPage` | `src/pages/Login.jsx` |
| `Profile` | `src/pages/Profile.jsx` |

Five modules are shared by the others:

- `Js`: optional values, string truthiness, `String(...)` coercion and fetch outcomes.
- `Text`: the string built-ins the source calls.
- `Seqs`: `filter` and `find`, plus the subsequence order.
- `Entities`: the backend records.
- `FileLinks`: the base-URL and `../uploads` rewrite. `SinglePage.jsx` and `PaperList.jsx` both perform it.

Quirks of the source are reproduced, not fixed:

- The browse filter compares the paper's own `_id` with the selected category.
- The synthetic "All" sidebar entry has no `category_id`. Clicking it therefore empties the list, and it is then that entry which is highlighted.
- The submission title check reads the arity of `trim` and never fails.
- The detail card's download link skips the `../uploads` rewrite.
- The logout service reads an undeclared identifier, so it always takes its failure path.
- A login reply with a token but no user stores the text "undefined" under "user". The next startup then fails to parse it.
- In the detail hook, a category or user body that is `null` or `undefined` sets the paper and then throws at the final `.length` read. The page shows that `TypeError` instead of the paper. Its message is given in the wording of the V8 engine.
- The browse page reads `data` of what the category service returns. A bare array has no such field, so the sidebar then offers "All" only.
- A paper whose `file_url` is the empty string gets a card link to the bare API root in the paper list. The paper page, by contrast, treats the same paper as having no file.

Two places where the code does not do what it evidently means to do; the model follows the code:

- **Startup with an unparsable user.** The startup effect is meant to end with `setLoading(false)` on every path. In the code, `JSON.parse` throws inside the effect before `setLoading(false)` runs (`src/context/AuthContext.jsx:24-28`). `AuthContext.Initialize` therefore keeps loading true when the stored user text is not JSON.
- **Login reply without a user.** Such a reply is meant to leave the session signed out and storage untouched. In the code, the service has already stored the token and the user text (`src/services/authServices.js:10-13`). `AuthContext.Adopt` keeps those writes.

## Model

| member | source | states |
|---|---|---|
| Browser.Init | src/pages/Browser.jsx:8-12 | the page starts with category "All", an empty search and nothing loaded, and its filtered list already agrees with the filter |
| Browser.FilterPapers | src/pages/Browser.jsx:55-71 | the filtered list is an order-preserving sublist of the papers; every paper in it passes both the category and the text predicate, and every paper passing both is in it |
| Browser.FilterPapersIsConjunction | src/pages/Browser.jsx:56-70 | the two chained filters equal one filter by the conjunction of the predicates |
| Browser.EmptyTermKeepsCategoryMatches | src/pages/Browser.jsx:62-70 | an empty search term imposes no text restriction |
| Browser.AllAndEmptyTermShowsEverything | src/pages/Browser.jsx:57-70 | with "All" selected and no search term, every paper is shown |
| Browser.AbsentSelectionShowsNothing | src/pages/Browser.jsx:57-61 | an undefined selection lets no paper through, whatever the term |
| Browser.SelectionComparesPaperId | src/pages/Browser.jsx:60 | selecting a category id hides a paper filed under that category, since the paper's own `_id` is compared |
| Browser.FilterPapersIdempotent | src/pages/Browser.jsx:55-71 | filtering an already filtered list again with the same inputs changes nothing |
| Browser.Refilter | src/pages/Browser.jsx:55-72 | the filtering effect makes the filtered list agree with the inputs and changes nothing else |
| Browser.PapersLoaded | src/pages/Browser.jsx:15-27 | a loaded paper list (undefined counts as empty) replaces the papers; the selection, term and categories stay, and the filtered list agrees |
| Browser.CategoryData | src/pages/Browser.jsx:33-38 | `response.data`, or `[]` when that is falsy, is then mapped: a `null` response or a truthy non-array `data` throws; an array under `data` is mapped; a falsy `data`, a bare array or another value gives no categories |
| Browser.CategoryEntries | src/pages/Browser.jsx:38-46 | the sidebar list is the "All" entry without `category_id`, then one entry per backend category in order, with `category_id` its `_id` and its caption its `category_name` |
| Browser.CategoriesLoaded | src/pages/Browser.jsx:30-52 | loading the categories replaces the sidebar entries and nothing else, and a throw changes nothing; a filtered list that agreed still agrees |
| Browser.BareArrayShowsOnlyAll | src/pages/Browser.jsx:33-46 | a category service answering with a bare array leaves only the "All" entry |
| Browser.Search | src/pages/Browser.jsx:92 | typing sets the term, keeps papers, selection and sidebar entries, and the filtered list agrees |
| Browser.SelectEntry | src/pages/Browser.jsx:79-83 | clicking an entry makes its `category_id` the selection and nothing else changes |
| Browser.ClickingAllShowsNothing | src/pages/Browser.jsx:44-61 | clicking the "All" entry empties the list, and that entry is then the highlighted one |
| Browser.InitiallyAllIsNotHighlighted | src/pages/Browser.jsx:8-46 | in the initial state the "All" entry is not highlighted |
| Browser.Render | src/pages/Browser.jsx:97-101 | "No papers found." shows exactly when the filtered list is empty, otherwise the list |
| Sidebar.Render | src/components/Sidebar.jsx:6-17 | one item per entry, in order, captioned by its `category`, highlighted exactly when the selection strictly equals its `category_id` |
| Sidebar.Click | src/components/Sidebar.jsx:14 | after a click the clicked entry is highlighted, and exactly the entries sharing its `category_id` are |
| Hero.QueryWords | src/components/Hero.jsx:21 | the query words are the non-empty space-separated pieces of the lower-cased query, in order, each as often as it occurs there |
| Hero.OneWordQuery | src/components/Hero.jsx:21 | a query without spaces is searched as its one lower-cased word |
| Hero.FilterPapers | src/components/Hero.jsx:20-26 | the results are an order-preserving sublist of the papers: exactly those sharing a whole lower-cased title word with the query and passing the category filter, each kept as many times as the papers list it |
| Hero.BlankQueryHasNoWords | src/components/Hero.jsx:21 | a query made of spaces, the empty query included, has no words |
| Hero.BlankQueryMatchesNothing | src/components/Hero.jsx:20-26 | such a query matches no paper, because `some` over no words is false |
| Hero.ToggleDropdown | src/components/Hero.jsx:84 | the button flips the dropdown and keeps query and filter |
| Hero.ToggleTwiceRestores | src/components/Hero.jsx:84 | two clicks restore the widget |
| Hero.SelectCategory | src/components/Hero.jsx:95-98 | picking a category sets the filter and closes the dropdown |
| Hero.ResultsPanel | src/components/Hero.jsx:60-75 | the panel is hidden exactly for an empty query; otherwise it shows the non-empty matches, or "No results found." exactly when there are none |
| Hero.SpacesQueryShowsNoResults | src/components/Hero.jsx:60-75 | a query of spaces opens the panel with "No results found." |
| PaperData.PaperErrorMessage | src/hooks/usePaperData.js:53-59 | 404 gives the not-found message, 403 the access-denied message, anything else "Failed to load paper: " and the error text |
| PaperData.ArrayOrEmpty | src/hooks/usePaperData.js:33-81 | an array body, or an array under the body's `data`, is kept; a failed call, `null` and any other body become the empty list |
| PaperData.LengthError | src/hooks/usePaperData.js:33-86 | reading `.length` of the received list throws exactly when the body is `null` or `undefined`, with that `TypeError`'s message |
| PaperData.FetchData | src/hooks/usePaperData.js:18-98 | no id: only the error "No paper ID provided" and nothing requested; a failed paper fetch: its mapped message, previous data kept; an empty paper: "Paper data is empty or invalid"; otherwise the paper with degraded lists, and no error unless a `null` list body throws at `.length`, categories first; loading false on every path; the request order |
| PaperData.ErrorComesFromPaperOnly | src/hooks/usePaperData.js:34-86 | the category and user fetches influence the error only through the `.length` read: runs whose bodies raise the same errors there end with the same error |
| PaperData.NullCategoriesFailAfterPaper | src/hooks/usePaperData.js:79-91 | a `null` category body sets the paper and then the error "Cannot read properties of null (reading 'length')" |
| PaperData.CategoryName | src/hooks/usePaperData.js:104-117 | "Unknown" without paper, categories or match; otherwise the first matching category's `category_name`, falling back to `category` |
| PaperData.AbsentCategoryIdsMatch | src/hooks/usePaperData.js:110-112 | a paper without `category_id` takes the name of a category that also lacks one |
| PaperData.ShortId | src/hooks/usePaperData.js:131 | the fallback name is "User " and at most four characters that end the id |
| PaperData.UserName | src/hooks/usePaperData.js:124-146 | "Unknown User" for a falsy id; the short id when no user has that id; otherwise the name of the first user with that id |
| PaperData.CategoryFailureDegrades | src/hooks/usePaperData.js:34-91 | a failed category fetch still sets the paper, with category "Unknown"; the error stays clear exactly when the user body is not `null` or `undefined` |
| PaperData.UserFailureDegrades | src/hooks/usePaperData.js:63-91 | a failed user fetch still sets the paper, and every author shows as a short id; the error stays clear exactly when the category body is not `null` or `undefined` |
| PaperData.NotFoundReported | src/hooks/usePaperData.js:53-54 | a 404 leaves the hook with the not-found message, no paper and loading finished |
| PaperDetails.GradientIndex | src/components/PaperDetails.jsx:16-19 | the gradient index is always one of the five gradients |
| PaperDetails.GradientOfShortIds | src/components/PaperDetails.jsx:16-19 | the empty id takes gradient 0, and a one-character id in the Basic Multilingual Plane takes its character code modulo 5; with the concatenation lemma this fixes the index of every such id |
| PaperDetails.GradientOfConcat | src/components/PaperDetails.jsx:16-19 | the hash is additive, so the index of a concatenated id follows from its parts |
| PaperDetails.GradientIgnoresOrder | src/components/PaperDetails.jsx:16-19 | ids that are rotations of each other share a gradient |
| PaperDetails.CategoryLabel | src/components/PaperDetails.jsx:33 | the header shows the category name it is given when that is non-empty, else "Unknown" |
| PaperDetails.CategoryLabelOfLookup | src/components/PaperDetails.jsx:33 | with the page's lookup: "Unknown" when no category matches, else the first match's `category_name`, falling back to its `category` and then to "Unknown" |
| PaperDetails.DescriptionText | src/components/PaperDetails.jsx:51 | the description when it is non-empty, else "No description available."; never blank |
| PaperDetails.AuthorName | src/components/PaperDetails.jsx:77-81 | a co-author id shows "fname lname" of the first user with that id, absent parts as "undefined", else "Unknown Author" |
| PaperDetails.Coauthors | src/components/PaperDetails.jsx:75-88 | "No co-authors listed." exactly for a missing or empty list, otherwise one name per id in order |
| PaperDetails.Tags | src/components/PaperDetails.jsx:92-115 | "No tags available." exactly for missing or empty tags, otherwise "#"+tag per tag in order |
| PaperDetails.MetaLines | src/components/PaperDetails.jsx:118-131 | the metadata section exists exactly for an object with at least one key, with one "key: value" line per entry |
| PaperDetails.DownloadHref | src/components/PaperDetails.jsx:56-60 | the link exists exactly when `file_url` is set and is the API root followed by the raw `file_url` |
| PaperDetails.DownloadSkipsRewrite | src/components/PaperDetails.jsx:60 | for a `../uploads` path the download link differs from the preview link |
| PaperDetails.Render | src/components/PaperDetails.jsx:19-131 | the card carries one of the five gradients chosen by the id hash, the title, the category label, the description text, a download link exactly when there is a file, namely the detail download link, and the co-author, tag and metadata views |
| FileLinks.Resolve | src/pages/SinglePage.jsx:55-57 | a `file_url` starting with "http" is linked unchanged; any other is appended to the API root after its first `../uploads` becomes `/uploads` |
| FileLinks.ApiRoot | src/pages/SinglePage.jsx:57 | one trailing "/api/" or "/api" is removed from the base URL; any other base is kept |
| FileLinks.LegacyPathRewritten | src/pages/SinglePage.jsx:55-57 | a `../uploads` path is served as `/uploads` under the API root |
| FileLinks.PlainPathAppended | src/pages/SinglePage.jsx:55-57 | a relative path without the legacy prefix is appended unchanged |
| FileLinks.RewriteKeepsSuffix | src/pages/SinglePage.jsx:57 | the first-occurrence rewrite keeps any suffix free of the letter "s" |
| FileLinks.ResolveKeepsExtension | src/components/PaperList.jsx:31-36 | resolution keeps an extension such as ".pdf", ".doc" or ".docx" |
| SinglePage.ResolvedFileUrl | src/pages/SinglePage.jsx:50-58 | "" without a paper or `file_url`; an absolute `file_url` as it is; otherwise the resolved link |
| SinglePage.ResolvedEmptyIffNoFile | src/pages/SinglePage.jsx:50-58 | the resolved link is empty exactly when there is no file |
| SinglePage.PreviewFor | src/pages/SinglePage.jsx:111-184 | empty link: no file; ".pdf": viewer; otherwise ".doc" or ".docx": Word download; anything else: plain download, always with the given link |
| SinglePage.TagsSection | src/pages/SinglePage.jsx:190-224 | nothing for missing or empty tags, else "#"+tag per tag in order |
| SinglePage.Render | src/pages/SinglePage.jsx:60-105 | the spinner exactly while loading, then the error with retry, then "Paper not found", then the details: the card with the looked-up category name, the preview and the tags |
| SinglePage.NullCategoriesShowError | src/pages/SinglePage.jsx:65-68 | a `null` category body replaces a loaded paper with the `TypeError` message and a retry button |
| SinglePage.NoFileIffNoFileUrl | src/pages/SinglePage.jsx:112-118 | "No file available for preview" shows exactly when the paper has no `file_url` |
| SinglePage.PdfPaperGetsViewer | src/pages/SinglePage.jsx:121-142 | a stored PDF opens in the viewer, legacy path or not |
| SinglePage.WordPaperGetsDownload | src/pages/SinglePage.jsx:145-162 | a stored ".docx" file gets the Word download link |
| SinglePage.UnknownPaperShowsError | src/pages/SinglePage.jsx:65-68 | a paper id the backend answers with 404 ends on the error screen with the not-found message |
| PaperList.Truncate | src/components/PaperList.jsx:24-26 | at most 103 characters; an over-long description keeps its first 100 and ends in "...", a shorter one is unchanged |
| PaperList.TruncateTwice | src/components/PaperList.jsx:24-26 | cutting an already cut description cuts it again, because 103 exceeds 100 |
| PaperList.DetailLink | src/components/PaperList.jsx:16 | the card links to "/browser/" followed by exactly the paper's `_id` |
| PaperList.RenderCards | src/components/PaperList.jsx:13-44 | one card per paper in order with its link, title, summary and file link; no list at all when some paper lacks a description or `file_url` |
| PaperList.CardSummaryMatchesDetails | src/components/PaperList.jsx:24-26 | a card's summary is the description the detail page shows, cut to its first 100 characters when longer; an empty description stays blank on the card and becomes the placeholder on the detail page |
| PaperList.CardLinkMatchesPreview | src/components/PaperList.jsx:31-36 | for a non-empty `file_url`, a card's file link equals the link the paper page previews (an empty one diverges, as listed among the quirks) |
| Submit.InitialTagsWellFormed | src/pages/Submit.jsx:13 | the empty tag list is well formed |
| Submit.TagKeyDown | src/pages/Submit.jsx:62-71 | a key press either changes nothing or appends the trimmed input and clears the box, and it appends exactly for Enter or "," with a non-empty, new trimmed input |
| Submit.AppendKeepsWellFormed | src/pages/Submit.jsx:66-67 | appending a new, non-empty, trimmed tag keeps the list free of repeats and blanks |
| Submit.TagKeyDownKeepsWellFormed | src/pages/Submit.jsx:62-71 | key presses keep the tag list well formed |
| Submit.DuplicateTagKept | src/pages/Submit.jsx:66 | committing a tag already listed changes nothing, and the text stays in the box |
| Submit.CommitTwiceListsOnce | src/pages/Submit.jsx:62-71 | committing the same text twice lists it once |
| Submit.RemoveTag | src/pages/Submit.jsx:73-75 | removal drops every equal entry, keeps every other in order, and keeps the list well formed |
| Submit.RemoveAbsentTag | src/pages/Submit.jsx:73-75 | removing a tag that is not listed changes nothing |
| Submit.RemoveUndoesCommit | src/pages/Submit.jsx:62-75 | adding a tag and removing it restores the list |
| Submit.Validate | src/pages/Submit.jsx:83-105 | the title message never occurs; a trimmed description under 20 characters, then a missing file, then a MIME type other than PDF, DOC or DOCX gives the first failing message; it passes exactly when all three hold |
| Submit.TitleNeverChecked | src/pages/Submit.jsx:83-86 | the title does not affect validation |
| Submit.HandleSubmit | src/pages/Submit.jsx:77-138 | a failed check shows its message and sends nothing; otherwise the payload carries the form's fields; success resets the entered fields but not the selected co-authors or the tag box, raises the popup and leaves the success text empty; failure shows the server's `error` or the fallback and keeps every field |
| Submit.ResubmitAfterSuccessBlocked | src/pages/Submit.jsx:87-90 | right after a successful upload a second submit is stopped by the description check |
| Submit.RetryAfterFailureResends | src/pages/Submit.jsx:107-136 | after a failed upload, submitting again sends the same payload |
| Submit.SubmitKeepsTagsWellFormed | src/pages/Submit.jsx:118-136 | a submit keeps the tag list well formed, whatever the outcome |
| AuthServices.Serialize | src/services/authServices.js:12 | a present user is stored as its record; an absent one as the text "undefined" |
| AuthServices.Failure | src/services/authServices.js:16-18 | a failed call becomes a reply holding only a non-empty error: the server's message, else the fallback |
| AuthServices.Login | src/services/authServices.js:6-19 | the reply is returned as received; a token stores the token and the user; without a token, or on failure ("Login failed" fallback), storage is unchanged |
| AuthServices.Signup | src/services/authServices.js:22-37 | the stored user is never touched; a token is stored; a failure stores nothing and falls back to "Signup failed" |
| AuthServices.Logout | src/services/authServices.js:40-47 | success removes only the token; failure stores nothing and returns the server message or "Logout failed" |
| AuthServices.LogoutAsWrittenFails | src/services/authServices.js:42 | as written the logout service always fails and never removes the token |
| AuthServices.GetToken | src/services/authServices.js:60 | a token is returned exactly when a non-empty one is stored |
| AuthServices.AuthHeader | src/services/authServices.js:63-65 | "Bearer " followed by the stored token, or "Bearer null" |
| AuthServices.HeaderAfterLogin | src/services/authServices.js:10-11 | after a login returning a token, the header carries that token |
| AuthServices.FailedLoginKeepsHeader | src/services/authServices.js:16-18 | a failed login leaves the header unchanged |
| AuthContext.IsAuthenticated | src/context/AuthContext.jsx:125 | signed in exactly when some user record is held, however empty |
| AuthContext.AuthenticatedAfterStartup | src/context/AuthContext.jsx:17-29 | after a reload the session is signed in exactly when a non-empty token and a user record are stored |
| AuthContext.Initialize | src/context/AuthContext.jsx:17-29 | the user is restored exactly when a token and a stored user record exist; loading stays true exactly when there is a token and a non-empty stored user text that is not JSON |
| AuthContext.Normalize | src/context/AuthContext.jsx:40-47 | the kept record has `id` from `id`, else `_id`, no `_id`, and the other five fields copied |
| AuthContext.Adopt | src/context/AuthContext.jsx:34-67 | loading ends on every path; a thrown error is passed on; a reply with token and user signs in the normalized record and stores it; any other reply keeps the user |
| AuthContext.HandleLogin | src/context/AuthContext.jsx:34-67 | the caller receives the login service's reply |
| AuthContext.HandleSignup | src/context/AuthContext.jsx:71-103 | the caller receives the signup service's reply |
| AuthContext.HandleLogout | src/context/AuthContext.jsx:105-122 | whatever the backend does, the user is cleared, both keys removed and loading ended |
| AuthContext.LoginSignsIn | src/context/AuthContext.jsx:39-57 | a reply with token and user signs in its normalized record, stores both keys, and a reload restores the same session |
| AuthContext.SignupSignsIn | src/context/AuthContext.jsx:76-93 | signup has the same success contract as login |
| AuthContext.FailedLoginChangesNothing | src/context/AuthContext.jsx:60-61 | a failed login changes neither user nor storage and reports an error |
| AuthContext.TokenWithoutUserBreaksStartup | src/context/AuthContext.jsx:17-29 | a login reply with a token but no user stores "undefined" and the next startup never finishes loading |
| AuthContext.LogoutThenReloadSignedOut | src/context/AuthContext.jsx:105-122 | after logout a reload finds nobody signed in |
| LoginPage.MissingFields | src/pages/Login.jsx:29-41 | signup demands all six fields and login the email and password, each with its own message |
| LoginPage.Welcome | src/pages/Login.jsx:51 | the greeting names the first name, else the username |
| LoginPage.HandleSubmit | src/pages/Login.jsx:21-63 | loading ends on every path; a failed field check makes no call; an error reply or a throw shows its message (or "An error occurred"); an error-free reply leaves the error cleared; navigation to "/" with the greeting happens exactly for an error-free reply with a user and a token, and the greeting changes only then |
| LoginPage.LoginAnswer | src/pages/Login.jsx:42 | the form's login always gets a reply from the session, never a throw |
| LoginPage.LoginFlowGoesHome | src/pages/Login.jsx:42-56 | a valid login answered with a token and a user signs in, greets and goes home |
| LoginPage.RejectedLoginShowsError | src/pages/Login.jsx:47-48 | a rejected login shows the server message or "Login failed" and stays |
| LoginPage.EmptyPasswordNotSent | src/pages/Login.jsx:29-41 | an empty password never reaches the backend |
| Profile.FetchUserPapers | src/pages/Profile.jsx:47-55 | the fetched list replaces the papers; a failure only sets "Failed to fetch user papers" |
| Profile.OnMount | src/pages/Profile.jsx:38-45 | without a stored user nothing is requested; a stored record becomes the user and its `id` is asked for; unparsable text crashes |
| Profile.SignedOutStaysLoading | src/pages/Profile.jsx:99-105 | signed out, the page stays on "Loading Profile..." and fetches nothing |
| Profile.HandleEdit | src/pages/Profile.jsx:56-65 | an unknown id changes nothing; a known id selects the first paper with that id and opens the modal |
| Profile.HandleCloseModal | src/pages/Profile.jsx:82-85 | the modal closes and the selection clears; nothing else changes |
| Profile.EditThenCloseRestores | src/pages/Profile.jsx:56-85 | choosing a paper and closing the modal returns to the previous state |
| Profile.HandleDelete | src/pages/Profile.jsx:67-80 | success removes every paper with the id, keeps the others in order and shows the success message; failure keeps the list and shows "Failed to delete paper" |
| Profile.DeleteTwiceSameList | src/pages/Profile.jsx:70-72 | deleting the same id twice equals deleting it once |
| Profile.DeleteUnknownKeepsAll | src/pages/Profile.jsx:70-72 | deleting an id no paper has keeps the whole list |
| Profile.RequestDelete | src/pages/Profile.jsx:219-220 | the delete button remembers the id and opens the dialog, and nothing else changes |
| Profile.CancelDelete | src/pages/Profile.jsx:252-257 | cancel closes the dialog and changes nothing else |
| Profile.ConfirmDelete | src/pages/Profile.jsx:258-262 | confirm deletes the remembered paper, shows "Paper deleted successfully." or "Failed to delete paper", closes the dialog and changes nothing else |
| Profile.ConfirmRemovesRequested | src/pages/Profile.jsx:219-262 | requesting and confirming a delete removes exactly the papers with that id |
| Profile.HandleEditSubmit | src/pages/Profile.jsx:87-97 | a failed update shows "Failed to update the paper" and keeps the modal open; a successful one refetches and closes it, a failed refetch keeping the list and showing its message; nothing else changes |
| Text.Trim | src/pages/Submit.jsx:65 | `trim` returns a slice of the input with only spaces cut off before and after it, leaves no space at either end, and yields "" exactly for all-space input |
| Text.Split | src/components/Hero.jsx:21-22 | `split` on one character: no word holds the separator, and joining the words gives back the string |
| Text.CodeUnitSumConcat | src/components/PaperDetails.jsx:16-17 | the char-code sum of a concatenation is the sum of the parts' sums |
| Seqs.Filter | src/pages/Browser.jsx:56-70 | `filter` keeps, in order, exactly the elements satisfying the predicate, each as often as it occurs |
| Seqs.FilterKeepsDistinct | src/pages/Submit.jsx:73-75 | filtering a list without repeats cannot create one |

## Left out

- HTTP requests, `localStorage` as real I/O, and `JSON.parse`/`JSON.stringify`. Each call's outcome is an input. Storage is a record holding the "token" and "user" keys, the only two the core uses. A stored user is either a user record or a text that is not JSON.
- React effects, rendering order, async interleaving, unmount races, router navigation (kept only as the target path), `window.location.reload`, the PDF viewer worker and the photo preview.
- Timers: the three-second hiding of the upload popup and of the delete message.
- The random tag chip colours on the paper page, which are nondeterministic.
- Publication-date formatting.
- Unicode case folding. `toLowerCase` is modelled on ASCII letters only.
- String lengths are counted in code points, whereas the source counts UTF-16 code units. This affects `description.trim().length`, `slice(0, 100)` and `slice(-4)` only for characters outside the Basic Multilingual Plane. The char-code hash does sum UTF-16 code units.
- The base URL is a parameter. An undefined `VITE_API_URL`, which would make the link builders throw, is not modelled.
- The submission form's mount effect (`src/pages/Submit.jsx:29-44`). It loads categories and users to fill the dropdowns. When a call throws, its catch sets the error "Failed to fetch data. Please try again.", which the form then shows. The model starts from a form with no error, that is, from a mount whose two fetches succeeded.
- The co-author select and the typed `coauthors` text. Neither feeds anything but the payload and the reset.
- The JSON encoding of the tag and co-author arrays in the payload. They are carried as sequences.
- The profile's bio and photo fields.
- A missing `papers` field in the profile fetch reply.
- A `JSON.stringify(null)` user, which is only possible when the backend sends `null`.
- Signing in through `getUser`, which nothing in the core calls.
- The `process.env.API_URL` used in the login and signup URLs. In a browser build it may be undefined, which would make those calls fail; the outcome is an input either way.
- The users fetch as written, in the detail hook (`src/hooks/usePaperData.js:4`) and on the submission form (`src/pages/Submit.jsx:5`). Both import `getAllUsers`, which the users service does not export. Under ES-module linking that import is an error, so neither module loads at all, and with them neither the paper page nor the submission form. A bundler that tolerates the missing export would instead make the call throw on every mount; on the form that shows the fetch error above. The model assumes `getAllUsers` resolves in both importers. The paper page model takes its outcome as an input, and the submission form model assumes it succeeded. `PaperData.UserFailureDegrades` states what a failed one leads to.
- The category service turns every failure into `[]`. The category fetches therefore take that value as the service's answer. The detail hook's own catch of a failed category call is modelled too, although as written it is never reached.
- AuthContext.HandleLogin: the rethrow path of `Adopt` cannot be reached from here, because the service catches every error. `Adopt` still states that path.
- AuthContext.HandleSignup: as for `HandleLogin`, the rethrow path cannot be reached from here.
- PaperList.RenderCards: a paper without a description or `file_url` makes the whole list fail rather than one card, matching the throw in the source. The model does not say what React shows then.
- Profile.OnMount: a crash is reported without the state React leaves behind.

=== FILE: authcontext.dfy ===
/** The session shared by the pages: the signed-in user, a loading flag and the local storage,
    with startup restoration, login, signup and logout. */
module AuthContext {
  import opened Js
  import opened AuthServices

  datatype Session = Session(user: Option<UserObj>, loading: bool, store: Storage)

  /** `Boolean(user)`: any record counts, however empty. */
  predicate IsAuthenticated(s: Session)
    ensures IsAuthenticated(s) <==> s.user.Some?
  {
    s.user.Some?
  }

  /** The state before the startup effect ran. */
  function Mounted(store: Storage): Session {
    Session(None, true, store)
  }

  /** The startup effect. With a token and a stored user the user is parsed back; when the stored
      text is not JSON the parse throws, the effect stops and loading is never cleared. Without
      both, the user stays empty and loading ends. */
  function Initialize(store: Storage): (s: Session)
    ensures s.store == store
    ensures s.user.Some? <==> GetToken(store).Some? && store.user.Some? && store.user.value.Json?
    ensures s.user.Some? ==> s.user.value == store.user.value.user
    ensures s.loading <==>
      (GetToken(store).Some? && store.user.Some? && store.user.value.Text? && store.user.value.text != "")
  {
    if GetToken(store).Some? && store.user.Some? && store.user.value != Text("") then
      match store.user.value
      case Json(u) => Session(Some(u), false, store)
      case Text(_) => Mounted(store)
    else Session(None, false, store)
  }

  /** After a reload the session counts as signed in exactly when storage holds a non-empty
      token and a user record; a user stored as text leaves it signed out. */
  lemma AuthenticatedAfterStartup(store: Storage)
    ensures IsAuthenticated(Initialize(store)) <==>
      Truthy(store.token) && store.user.Some? && store.user.value.Json?
  {
  }

  /** The record kept for a signed-in user: `id` is the reply's `id`, else its `_id`. */
  function Normalize(u: UserObj): (n: UserObj)
    ensures n.mongoId.None?
    ensures Truthy(u.id) ==> n.id == u.id
    ensures !Truthy(u.id) ==> n.id == u.mongoId
    ensures n.(id := None) == u.(id := None, mongoId := None)
  {
    UserObj(if Truthy(u.id) then u.id else u.mongoId, None, u.email, u.username, u.fname, u.lname, u.institution)
  }

  /** How a service call ended, as the session handlers see it. */
  datatype Call = Returned(result: Result) | Threw(error: HttpError)

  /** What the handler hands back to its caller: the reply, or the rethrown error. */
  datatype Outcome = Replied(reply: Reply) | Rethrown(error: HttpError)

  /** Shared by login and signup. A reply with both a token and a user signs that user in and
      stores the normalized record; any other reply leaves the user as it was. Loading ends on
      every path, and a thrown error is passed on. */
  function Adopt(s: Session, call: Call): (r: (Session, Outcome))
    ensures !r.0.loading
    ensures call.Threw? ==> r == (s.(loading := false), Rethrown(call.error))
    ensures call.Returned? ==> r.1 == Replied(call.result.reply) && r.0.store.token == call.result.store.token
    ensures call.Returned? && Truthy(call.result.reply.token) && call.result.reply.user.Some? ==>
      var n := Normalize(call.result.reply.user.value);
      r.0.user == Some(n) && r.0.store.user == Some(Json(n))
    ensures call.Returned? && !(Truthy(call.result.reply.token) && call.result.reply.user.Some?) ==>
      r.0 == Session(s.user, false, call.result.store)
  {
    match call
    case Threw(e) => (s.(loading := false), Rethrown(e))
    case Returned(res) =>
      var reply := res.reply;
      if Truthy(reply.token) && reply.user.Some? then
        var n := Normalize(reply.user.value);
        (Session(Some(n), false, res.store.(user := Some(Json(n)))), Replied(reply))
      else (Session(s.user, false, res.store), Replied(reply))
  }

  /** `handleLogin`: the login service followed by `Adopt`. The service never throws, so the
      rethrow path of `Adopt` is not reached from here. */
  function HandleLogin(s: Session, outcome: Fetch<Reply>): (r: (Session, Outcome))
    ensures r.1 == Replied(Login(s.store, outcome).reply)
  {
    Adopt(s, Returned(Login(s.store, outcome)))
  }

  /** `handleSignup`: the signup service followed by `Adopt`. */
  function HandleSignup(s: Session, outcome: Fetch<Reply>): (r: (Session, Outcome))
    ensures r.1 == Replied(Signup(s.store, outcome).reply)
  {
    Adopt(s, Returned(Signup(s.store, outcome)))
  }

  /** `handleLogout`: whatever the service did, both keys are removed, the user is cleared and
      loading ends. */
  function HandleLogout(s: Session, outcome: Fetch<()>): (r: Session)
    ensures r == Session(None, false, Empty)
  {
    var (_, afterService) := Logout(s.store, outcome);
    Session(None, false, afterService.(user := None, token := None))
  }

  /** A login answered with a token and a user signs that user in, stores both keys, and a
      reload restores the same user. */
  lemma LoginSignsIn(s: Session, body: Reply)
    requires Truthy(body.token) && body.user.Some?
    ensures var (t, _) := HandleLogin(s, Ok(body));
      && IsAuthenticated(t) && !t.loading
      && t.user == Some(Normalize(body.user.value))
      && t.store == Storage(body.token, Some(Json(Normalize(body.user.value))))
      && Initialize(t.store) == t
  {
  }

  /** Signup follows the same contract as login. */
  lemma SignupSignsIn(s: Session, body: Reply)
    requires Truthy(body.token) && body.user.Some?
    ensures var (t, _) := HandleSignup(s, Ok(body));
      && IsAuthenticated(t) && !t.loading
      && t.user == Some(Normalize(body.user.value))
      && t.store == Storage(body.token, Some(Json(Normalize(body.user.value))))
      && Initialize(t.store) == t
  {
  }

  /** A failed login changes neither the user nor the storage and reports the failure. */
  lemma FailedLoginChangesNothing(s: Session, e: HttpError)
    ensures var (t, out) := HandleLogin(s, Err(e));
      t == s.(loading := false) && out.Replied? && out.reply.error.Some?
  {
  }

  /** A login answered with a token but no user stores the token and the text "undefined"
      without signing anyone in, and the next startup never finishes loading. */
  lemma TokenWithoutUserBreaksStartup(s: Session, body: Reply)
    requires Truthy(body.token) && body.user.None?
    ensures var (t, _) := HandleLogin(s, Ok(body));
      t.user == s.user && t.store.user == Some(Text("undefined"))
      && Initialize(t.store).loading && !IsAuthenticated(Initialize(t.store))
  {
  }

  /** After logout a reload finds nobody signed in and finishes loading. */
  lemma LogoutThenReloadSignedOut(s: Session, outcome: Fetch<()>)
    ensures Initialize(HandleLogout(s, outcome).store) == Session(None, false, Empty)
  {
  }
}

=== FILE: authservices.dfy ===
/** The authentication service: login, signup and logout calls and what they leave in the
    browser's local storage, the stored-token lookup and the authorization header. */
module AuthServices {
  import opened Js

  /** A user record as the backend sends it. `mongoId` is the `_id` field. */
  datatype UserObj = UserObj(
    id: Option<string>,
    mongoId: Option<string>,
    email: Option<string>,
    username: Option<string>,
    fname: Option<string>,
    lname: Option<string>,
    institution: Option<string>)

  /** What sits under the "user" key: the JSON text of a user record, or another text. Storing
      `JSON.stringify(undefined)` writes the text "undefined", which is not JSON. */
  datatype StoredUser = Json(user: UserObj) | Text(text: string)

  /** The two local-storage keys the application uses, "token" and "user". */
  datatype Storage = Storage(token: Option<string>, user: Option<StoredUser>)

  const Empty := Storage(None, None)

  /** The body of an authentication reply; a failed call is turned into one holding only `error`. */
  datatype Reply = Reply(token: Option<string>, user: Option<UserObj>, error: Option<string>)

  datatype Result = Result(reply: Reply, store: Storage)

  const LoginFailed := "Login failed"
  const SignupFailed := "Signup failed"
  const LogoutFailed := "Logout failed"

  /** The text `JSON.stringify(user)` stores: the record, or "undefined" when the reply has none. */
  function Serialize(user: Option<UserObj>): (s: StoredUser)
    ensures user.Some? <==> s.Json?
    ensures user.Some? ==> s.user == user.value
    ensures user.None? ==> s == Text("undefined")
  {
    if user.Some? then Json(user.value) else Text("undefined")
  }

  /** The error reply a rejected call becomes: the server's message, else `fallback`. */
  function Failure(e: HttpError, fallback: string): (r: Reply)
    requires fallback != ""
    ensures r.token.None? && r.user.None? && r.error.Some? && r.error.value != ""
    ensures Truthy(e.dataMessage) ==> r.error == e.dataMessage
    ensures !Truthy(e.dataMessage) ==> r.error == Some(fallback)
  {
    Reply(None, None, Some(Or(e.dataMessage, fallback)))
  }

  /** Login never throws. A reply with a token stores the token and the reply's user, even when
      that user is absent; a reply without one stores nothing. A failure stores nothing. */
  function Login(store: Storage, outcome: Fetch<Reply>): (r: Result)
    ensures outcome.Ok? ==> r.reply == outcome.value
    ensures outcome.Ok? && Truthy(outcome.value.token) ==>
      r.store == Storage(outcome.value.token, Some(Serialize(outcome.value.user)))
    ensures outcome.Ok? && !Truthy(outcome.value.token) ==> r.store == store
    ensures outcome.Err? ==> r.store == store && r.reply == Failure(outcome.error, LoginFailed)
  {
    match outcome
    case Ok(body) =>
      if Truthy(body.token) then Result(body, Storage(body.token, Some(Serialize(body.user))))
      else Result(body, store)
    case Err(e) => Result(Failure(e, LoginFailed), store)
  }

  /** Signup never throws. A reply with a token stores only the token. */
  function Signup(store: Storage, outcome: Fetch<Reply>): (r: Result)
    ensures outcome.Ok? ==> r.reply == outcome.value
    ensures r.store.user == store.user
    ensures outcome.Ok? && Truthy(outcome.value.token) ==> r.store.token == outcome.value.token
    ensures outcome.Ok? && !Truthy(outcome.value.token) ==> r.store == store
    ensures outcome.Err? ==> r.store == store && r.reply == Failure(outcome.error, SignupFailed)
  {
    match outcome
    case Ok(body) =>
      if Truthy(body.token) then Result(body, store.(token := body.token))
      else Result(body, store)
    case Err(e) => Result(Failure(e, SignupFailed), store)
  }

  /** Logout never throws: success removes only the token, failure returns an error and
      removes nothing. */
  function Logout(store: Storage, outcome: Fetch<()>): (r: (Option<string>, Storage))
    ensures outcome.Ok? ==> r.0.None? && r.1 == store.(token := None)
    ensures outcome.Err? ==> r.1 == store && r.0 == Failure(outcome.error, LogoutFailed).error
  {
    match outcome
    case Ok(_) => (None, store.(token := None))
    case Err(e) => (Failure(e, LogoutFailed).error, store)
  }

  /** The logout request URL reads an identifier that is never declared, so building it throws
      before any request leaves; the handler sees an error without a response. */
  const UndeclaredApiUrl := HttpError(None, None, None, "API_URL is not defined")

  /** As written, logout always takes its failure path and never removes the token. */
  lemma LogoutAsWrittenFails(store: Storage)
    ensures Logout(store, Err(UndeclaredApiUrl)) == (Some(LogoutFailed), store)
  {
  }

  /** `localStorage.getItem("token") || null`: an empty token counts as none. */
  function GetToken(store: Storage): (t: Option<string>)
    ensures t.Some? <==> Truthy(store.token)
    ensures t.Some? ==> t == store.token
  {
    if Truthy(store.token) then store.token else None
  }

  /** The authorization header value; without a token it reads "Bearer null". */
  function AuthHeader(store: Storage): (h: string)
    ensures GetToken(store).Some? ==> h == "Bearer " + store.token.value
    ensures GetToken(store).None? ==> h == "Bearer null"
  {
    "Bearer " + GetToken(store).GetOr("null")
  }

  /** After a login that returned a token, the header carries exactly that token. */
  lemma HeaderAfterLogin(store: Storage, body: Reply)
    requires Truthy(body.token)
    ensures AuthHeader(Login(store, Ok(body)).store) == "Bearer " + body.token.value
  {
  }

  /** A failed login leaves the header as it was. */
  lemma FailedLoginKeepsHeader(store: Storage, e: HttpError)
    ensures AuthHeader(Login(store, Err(e)).store) == AuthHeader(store)
  {
  }
}

=== FILE: browser.dfy ===
/** The browse page: the full paper list, a category selection and a search term, and the list
    filtered by both. Filtering re-runs whenever one of the three inputs changes, so every
    transition below ends with `Refilter`. */
module Browser {
  import opened Js
  import opened Text
  import opened Seqs
  import opened Entities
  import Sidebar

  const All := "All"

  datatype State = State(
    selected: Option<string>,       // selectedCategory; absent once the "All" entry is clicked
    searchTerm: string,
    papers: seq<Paper>,             // researchPapers
    filtered: seq<Paper>,           // filteredPapers
    categories: seq<Sidebar.Entry>)

  /** The filtered list is what the two predicates select from the full list. */
  predicate Consistent(s: State) {
    s.filtered == FilterPapers(s.papers, s.selected, s.searchTerm)
  }

  /** The state on mount: category "All", empty search, nothing loaded. */
  function Init(): (s: State)
    ensures s.selected == Some(All) && s.searchTerm == ""
    ensures s.papers == [] && s.filtered == [] && s.categories == []
    ensures Consistent(s)
  {
    State(Some(All), "", [], [], [])
  }

  // ---------------------------------------------------------------- predicates

  /** The category predicate. It compares the paper's own `_id`, not its `category_id`. */
  predicate CategoryPass(selected: Option<string>, p: Paper) {
    selected == Some(All) || selected == Some(p.id)
  }

  /** The text predicate: the lower-cased term occurs in the lower-cased title or description,
      an absent field counting as "". */
  predicate TextPass(term: string, p: Paper) {
    var q := ToLower(term);
    Contains(ToLower(p.name.GetOr("")), q) || Contains(ToLower(p.description.GetOr("")), q)
  }

  /** The two chained `filter` calls of the filtering effect. */
  function FilterPapers(papers: seq<Paper>, selected: Option<string>, term: string): (r: seq<Paper>)
    ensures IsSubsequence(r, papers)
    ensures forall i :: 0 <= i < |r| ==> CategoryPass(selected, r[i]) && TextPass(term, r[i])
    ensures forall i :: 0 <= i < |papers| ==>
      (CategoryPass(selected, papers[i]) && TextPass(term, papers[i]) ==> papers[i] in r)
  {
    var byCategory := Filter(papers, p => CategoryPass(selected, p));
    var r := Filter(byCategory, p => TextPass(term, p));
    SubsequenceTransitive(r, byCategory, papers);
    r
  }

  /** Filtering equals one filter by the conjunction of the two predicates. */
  lemma FilterPapersIsConjunction(papers: seq<Paper>, selected: Option<string>, term: string)
    ensures FilterPapers(papers, selected, term)
      == Filter(papers, p => CategoryPass(selected, p) && TextPass(term, p))
  {
    FilterFilter(papers, p => CategoryPass(selected, p), p => TextPass(term, p),
      p => CategoryPass(selected, p) && TextPass(term, p));
  }

  /** An empty search term imposes no text restriction. */
  lemma EmptyTermKeepsCategoryMatches(papers: seq<Paper>, selected: Option<string>)
    ensures FilterPapers(papers, selected, "") == Filter(papers, p => CategoryPass(selected, p))
  {
    var byCategory := Filter(papers, p => CategoryPass(selected, p));
    forall p | p in byCategory
      ensures TextPass("", p)
    {
      ContainsEmpty(ToLower(p.name.GetOr("")));
    }
    FilterKeepsAll(byCategory, p => TextPass("", p));
  }

  /** With "All" selected and no search term every paper is shown. */
  lemma AllAndEmptyTermShowsEverything(papers: seq<Paper>)
    ensures FilterPapers(papers, Some(All), "") == papers
  {
    EmptyTermKeepsCategoryMatches(papers, Some(All));
    FilterKeepsAll(papers, p => CategoryPass(Some(All), p));
  }

  /** An absent selection lets no paper through, whatever the search term. */
  lemma AbsentSelectionShowsNothing(papers: seq<Paper>, term: string)
    ensures FilterPapers(papers, None, term) == []
  {
    FilterKeepsNone(papers, p => CategoryPass(None, p));
  }

  /** Selecting a category id matches a paper whose `_id` is that id, never by `category_id`:
      a paper filed under category "c1" is hidden when "c1" is selected. */
  lemma SelectionComparesPaperId(term: string)
    ensures var p := Paper("p1", None, None, Some("c1"), None, None, NoMeta, None);
      FilterPapers([p], Some("c1"), term) == []
  {
    var p := Paper("p1", None, None, Some("c1"), None, None, NoMeta, None);
    assert !CategoryPass(Some("c1"), p);
    FilterKeepsNone([p], q => CategoryPass(Some("c1"), q));
  }

  /** Filtering an already filtered list again with the same inputs changes nothing. */
  lemma FilterPapersIdempotent(papers: seq<Paper>, selected: Option<string>, term: string)
    ensures FilterPapers(FilterPapers(papers, selected, term), selected, term)
      == FilterPapers(papers, selected, term)
  {
    var both := p => CategoryPass(selected, p) && TextPass(term, p);
    FilterPapersIsConjunction(papers, selected, term);
    FilterPapersIsConjunction(FilterPapers(papers, selected, term), selected, term);
    FilterIdempotent(papers, both);
  }

  // ---------------------------------------------------------------- transitions

  /** The filtering effect. */
  function Refilter(s: State): (t: State)
    ensures Consistent(t)
    ensures t == s.(filtered := t.filtered)
  {
    s.(filtered := FilterPapers(s.papers, s.selected, s.searchTerm))
  }

  /** The paper fetch resolved; an undefined result counts as the empty list. */
  function PapersLoaded(s: State, fetched: Option<seq<Paper>>): (t: State)
    ensures t.papers == fetched.GetOr([])
    ensures Consistent(t)
    ensures t.selected == s.selected && t.searchTerm == s.searchTerm && t.categories == s.categories
  {
    Refilter(s.(papers := fetched.GetOr([]), filtered := fetched.GetOr([])))
  }

  /** The categories the mount effect maps: `response.data || []`, then `.map`. `None` stands for
      the throw that the effect catches and only logs: reading `data` of a `null` or `undefined`
      response, or mapping a truthy `data` that is not an array. An array response has no `data`
      field, so it maps to no categories at all. */
  function CategoryData(response: Json<Category>): (r: Option<seq<Category>>)
    ensures response.Nullish? ==> r.None?
    ensures response.Items? || response.Scalar? ==> r == Some([])
    ensures response.Envelope? && response.data.Items? ==> r == Some(response.data.items)
    ensures response.Envelope? && !response.data.Items? ==>
      (r.None? <==> JsonTruthy(response.data)) && (r.Some? ==> r == Some([]))
  {
    match response
    case Nullish(_) => None
    case Envelope(d) => if d.Items? then Some(d.items) else if JsonTruthy(d) then None else Some([])
    case _ => Some([])
  }

  /** The sidebar entries: a synthetic "All" entry without `category_id`, then one entry per
      backend category, in order, keyed and identified by its `_id` and labelled by its
      `category_name`. */
  function CategoryEntries(cats: seq<Category>): (entries: seq<Sidebar.Entry>)
    ensures |entries| == |cats| + 1
    ensures entries[0] == Sidebar.Entry(All, Some(All), None)
    ensures forall i :: 0 <= i < |cats| ==>
      entries[i + 1] == Sidebar.Entry(cats[i].id, cats[i].categoryName, Some(cats[i].id))
  {
    [Sidebar.Entry(All, Some(All), None)]
      + seq(|cats|, i requires 0 <= i < |cats| => Sidebar.Entry(cats[i].id, cats[i].categoryName, Some(cats[i].id)))
  }

  /** The category fetch resolved with `response`: the sidebar entries are replaced and nothing
      else changes; when the mapping throws, nothing changes at all. */
  function CategoriesLoaded(s: State, response: Json<Category>): (t: State)
    ensures CategoryData(response).None? ==> t == s
    ensures CategoryData(response).Some? ==> t == s.(categories := CategoryEntries(CategoryData(response).value))
    ensures Consistent(s) ==> Consistent(t)
  {
    match CategoryData(response)
    case None => s
    case Some(cats) => s.(categories := CategoryEntries(cats))
  }

  /** A bare array from the category service is mapped through its missing `data` field: the
      sidebar then offers "All" only. */
  lemma BareArrayShowsOnlyAll(s: State, cats: seq<Category>)
    ensures CategoriesLoaded(s, Items(cats)).categories == [Sidebar.Entry(All, Some(All), None)]
  {
  }

  /** Typing in the search box. */
  function Search(s: State, term: string): (t: State)
    ensures t.searchTerm == term && t.papers == s.papers && t.selected == s.selected
    ensures t.categories == s.categories
    ensures Consistent(t)
  {
    Refilter(s.(searchTerm := term))
  }

  /** Clicking the `i`-th sidebar entry. */
  function SelectEntry(s: State, i: nat): (t: State)
    requires i < |s.categories|
    ensures t.selected == s.categories[i].categoryId
    ensures t.papers == s.papers && t.searchTerm == s.searchTerm && t.categories == s.categories
    ensures Consistent(t)
  {
    Refilter(s.(selected := Sidebar.Click(s.categories, i)))
  }

  /** Clicking the "All" entry empties the list instead of clearing the filter, and it is the
      "All" entry that is then highlighted. */
  lemma ClickingAllShowsNothing(s: State, response: Json<Category>)
    requires CategoryData(response).Some?
    ensures var t := SelectEntry(CategoriesLoaded(s, response), 0);
      t.filtered == [] && Sidebar.Render(t.categories, t.selected)[0].highlighted
  {
    var t := SelectEntry(CategoriesLoaded(s, response), 0);
    AbsentSelectionShowsNothing(t.papers, t.searchTerm);
  }

  /** In the initial state the "All" entry is not highlighted, because it has no `category_id`.
      A backend category whose `_id` is "All" would be. */
  lemma InitiallyAllIsNotHighlighted(response: Json<Category>)
    requires CategoryData(response).Some?
    ensures !Sidebar.Render(CategoriesLoaded(Init(), response).categories, Some(All))[0].highlighted
  {
  }

  // ---------------------------------------------------------------- view

  datatype View = NoPapersFound | PaperList(papers: seq<Paper>)

  /** The main panel: "No papers found." exactly when the filtered list is empty. */
  function Render(s: State): (v: View)
    ensures v.NoPapersFound? <==> |s.filtered| == 0
    ensures v.PaperList? ==> v.papers == s.filtered
  {
    if |s.filtered| > 0 then PaperList(s.filtered) else NoPapersFound
  }
}

=== FILE: entities.dfy ===
/** The records the backend sends, with the fields the front-end reads. A field the backend may
    omit is an `Option`. Timestamps are not modelled. */
module Entities {
  import opened Js

  /** A paper's `meta`: absent, a plain string (what the submission form sends), or an object
      whose entries are listed in key order. */
  datatype Meta = NoMeta | MetaText(text: string) | MetaObject(entries: seq<(string, string)>)

  /** A paper as returned by `GET /papers` and `GET /papers/:id`. */
  datatype Paper = Paper(
    id: string,                         // _id
    name: Option<string>,               // paper_name
    description: Option<string>,
    categoryId: Option<string>,         // category_id
    coauthors: Option<seq<string>>,     // user ids
    tags: Option<seq<string>>,
    meta: Meta,
    fileUrl: Option<string>)            // file_url: absolute URL or relative path

  /** A category as returned by `GET /categories`. */
  datatype Category = Category(
    id: string,                         // _id
    categoryId: Option<string>,         // category_id, which the backend does not normally send
    categoryName: Option<string>,       // category_name
    category: Option<string>)

  /** A user record as returned by the users endpoints. */
  datatype Account = Account(
    id: string,                         // _id
    fname: Option<string>,
    lname: Option<string>,
    username: Option<string>,
    email: Option<string>)
}

=== FILE: filelinks.dfy ===
/** How a paper's `file_url` becomes a link the browser can open. The backend base URL ends in
    `/api`, while uploaded files are served from the host root; stored paths may still carry the
    legacy `../uploads` prefix. */
module FileLinks {
  import opened Text

  const LegacyUploads := "../uploads"
  const PublicUploads := "/uploads"

  /** `base.replace(/\/api\/?$/, "")`: one trailing `/api` or `/api/` is removed. */
  function ApiRoot(base: string): (r: string)
    ensures EndsWith(base, "/api/") ==> base == r + "/api/"
    ensures EndsWith(base, "/api") ==> base == r + "/api"
    ensures !EndsWith(base, "/api/") && !EndsWith(base, "/api") ==> r == base
  {
    if EndsWith(base, "/api/") then
      assert base[|base| - 1] == "/api/"[4];
      base[..|base| - 5]
    else if EndsWith(base, "/api") then base[..|base| - 4]
    else base
  }

  /** The link for a non-empty `file_url`: absolute URLs pass through; anything else is
      appended to the API root after its first `../uploads` becomes `/uploads`. */
  function Resolve(base: string, fileUrl: string): (url: string)
    ensures StartsWith(fileUrl, "http") ==> url == fileUrl
    ensures !StartsWith(fileUrl, "http") ==>
      StartsWith(url, ApiRoot(base)) && url[|ApiRoot(base)|..] == ReplaceFirst(fileUrl, LegacyUploads, PublicUploads)
  {
    if StartsWith(fileUrl, "http") then fileUrl
    else ApiRoot(base) + ReplaceFirst(fileUrl, LegacyUploads, PublicUploads)
  }

  /** A legacy relative path is served from the public uploads directory under the API root. */
  lemma LegacyPathRewritten(base: string, fileUrl: string)
    requires StartsWith(fileUrl, LegacyUploads)
    ensures Resolve(base, fileUrl) == ApiRoot(base) + PublicUploads + fileUrl[|LegacyUploads|..]
  {
    assert OccursAt(fileUrl, LegacyUploads, 0);
    assert !StartsWith(fileUrl, "http") by {
      assert fileUrl[0] == '.';
    }
  }

  /** A relative path without the legacy prefix is appended to the API root as it is. */
  lemma PlainPathAppended(base: string, fileUrl: string)
    requires !StartsWith(fileUrl, "http")
    requires !Contains(fileUrl, LegacyUploads)
    ensures Resolve(base, fileUrl) == ApiRoot(base) + fileUrl
  {
  }

  /** The legacy-prefix rewrite keeps a suffix that has no `s` in it: an occurrence of the
      prefix reaching into the suffix would put its final `s` there. */
  lemma RewriteKeepsSuffix(fileUrl: string, ext: string)
    requires EndsWith(fileUrl, ext)
    requires 's' !in ext
    ensures EndsWith(ReplaceFirst(fileUrl, LegacyUploads, PublicUploads), ext)
  {
    var moved := ReplaceFirst(fileUrl, LegacyUploads, PublicUploads);
    match IndexOf(fileUrl, LegacyUploads)
    case None =>
    case Some(i) =>
      var tail := |fileUrl| - |ext|;
      assert OccursAt(fileUrl, LegacyUploads, i);
      assert fileUrl[i + 9] == fileUrl[i..i + 10][9] == 's';
      assert forall k :: tail <= k < |fileUrl| ==> fileUrl[k] == ext[k - tail] != 's';
      assert i + 10 <= tail;
      var rest := fileUrl[i + 10..];
      assert moved == fileUrl[..i] + PublicUploads + rest;
      assert rest[|rest| - |ext|..] == fileUrl[tail..];
  }

  lemma EndsWithAppend(a: string, b: string, ext: string)
    requires EndsWith(b, ext)
    ensures EndsWith(a + b, ext)
  {
    assert (a + b)[|a + b| - |ext|..] == b[|b| - |ext|..];
  }

  /** Resolution keeps a file extension that has no `s` in it (".pdf", ".doc", ".docx"). */
  lemma ResolveKeepsExtension(base: string, fileUrl: string, ext: string)
    requires EndsWith(fileUrl, ext)
    requires 's' !in ext
    ensures EndsWith(Resolve(base, fileUrl), ext)
  {
    if !StartsWith(fileUrl, "http") {
      RewriteKeepsSuffix(fileUrl, ext);
      EndsWithAppend(ApiRoot(base), ReplaceFirst(fileUrl, LegacyUploads, PublicUploads), ext);
    }
  }
}

=== FILE: hero.dfy ===
/** The landing-page search box: a whole-word search over a fixed list of sample papers, with a
    category dropdown. */
module Hero {
  import opened Text
  import opened Seqs

  datatype MockPaper = MockPaper(id: nat, title: string, category: string)

  const Categories: seq<string> := ["All", "Science", "Technology", "Engineering", "Mathematics"]

  const MockPapers: seq<MockPaper> := [
    MockPaper(1, "The Future of AI in Technology", "Technology"),
    MockPaper(2, "Quantum Physics and its Applications", "Science"),
    MockPaper(3, "Advancements in Civil Engineering", "Engineering"),
    MockPaper(4, "Mathematical Models in Biology", "Mathematics")
  ]

  /** `query.toLowerCase().split(" ").filter(Boolean)`: the non-empty space-separated pieces of
      the lower-cased query, in order, each as often as it occurs; only empty pieces are dropped. */
  function QueryWords(query: string): (words: seq<string>)
    ensures forall k :: 0 <= k < |words| ==> words[k] != "" && ' ' !in words[k]
    ensures IsSubsequence(words, Split(ToLower(query), ' '))
    ensures multiset(words) <= multiset(Split(ToLower(query), ' '))
    ensures var pieces := Split(ToLower(query), ' ');
      forall i :: 0 <= i < |pieces| && pieces[i] != "" ==> multiset(words)[pieces[i]] == multiset(pieces)[pieces[i]]
  {
    Filter(Split(ToLower(query), ' '), w => w != "")
  }

  /** A query of one word without spaces searches for that word, lower-cased. */
  lemma OneWordQuery(query: string)
    requires query != "" && ' ' !in query
    ensures QueryWords(query) == [ToLower(query)]
  {
    var lower := ToLower(query);
    assert ' ' !in lower by {
      assert forall k :: 0 <= k < |lower| ==> lower[k] == LowerChar(query[k]) && query[k] != ' ';
    }
    SplitWithoutSeparator(lower, ' ');
    assert Split(lower, ' ')[1..] == [];
  }

  /** Some query word equals a whole lower-cased title word. */
  predicate MatchesQuery(query: string, p: MockPaper) {
    var titleWords := Split(ToLower(p.title), ' ');
    exists k :: 0 <= k < |QueryWords(query)| && QueryWords(query)[k] in titleWords
  }

  predicate MatchesCategory(filter: string, p: MockPaper) {
    filter == "All" || p.category == filter
  }

  /** `filteredPapers`, over any list of sample papers. */
  function FilterPapers(papers: seq<MockPaper>, query: string, filter: string): (r: seq<MockPaper>)
    ensures IsSubsequence(r, papers)
    ensures forall i :: 0 <= i < |r| ==> MatchesQuery(query, r[i]) && MatchesCategory(filter, r[i])
    ensures forall i :: 0 <= i < |papers| ==>
      (MatchesQuery(query, papers[i]) && MatchesCategory(filter, papers[i]) ==> papers[i] in r)
    ensures forall i :: 0 <= i < |papers| && MatchesQuery(query, papers[i]) && MatchesCategory(filter, papers[i]) ==>
      multiset(r)[papers[i]] == multiset(papers)[papers[i]]
  {
    Filter(papers, p => MatchesQuery(query, p) && MatchesCategory(filter, p))
  }

  /** A query of spaces only (the empty query included) has no words. */
  lemma BlankQueryHasNoWords(query: string)
    requires forall k :: 0 <= k < |query| ==> query[k] == ' '
    ensures QueryWords(query) == []
  {
    var lower := ToLower(query);
    SplitOfSeparators(lower, ' ');
    FilterKeepsNone(Split(lower, ' '), w => w != "");
  }

  /** An empty or all-space query matches no paper, since `some` over no words is false. */
  lemma BlankQueryMatchesNothing(papers: seq<MockPaper>, query: string, filter: string)
    requires forall k :: 0 <= k < |query| ==> query[k] == ' '
    ensures FilterPapers(papers, query, filter) == []
  {
    BlankQueryHasNoWords(query);
    FilterKeepsNone(papers, p => MatchesQuery(query, p) && MatchesCategory(filter, p));
  }

  // ---------------------------------------------------------------- widget state

  datatype State = State(query: string, filter: string, dropdownOpen: bool)

  const Initial := State("", "All", false)

  /** The dropdown button toggles the list. */
  function ToggleDropdown(s: State): (t: State)
    ensures t.dropdownOpen != s.dropdownOpen
    ensures t.query == s.query && t.filter == s.filter
  {
    s.(dropdownOpen := !s.dropdownOpen)
  }

  lemma ToggleTwiceRestores(s: State)
    ensures ToggleDropdown(ToggleDropdown(s)) == s
  {
  }

  /** Picking a category sets the filter and closes the list. */
  function SelectCategory(s: State, category: string): (t: State)
    ensures t.filter == category && !t.dropdownOpen && t.query == s.query
  {
    s.(filter := category, dropdownOpen := false)
  }

  datatype Panel = Hidden | NoResults | Results(papers: seq<MockPaper>)

  /** The results panel: hidden for an empty query, otherwise the matches or "No results found.". */
  function ResultsPanel(s: State): (p: Panel)
    ensures p.Hidden? <==> s.query == ""
    ensures p.NoResults? <==> s.query != "" && FilterPapers(MockPapers, s.query, s.filter) == []
    ensures p.Results? ==> p.papers == FilterPapers(MockPapers, s.query, s.filter) && |p.papers| > 0
  {
    if s.query == "" then Hidden
    else
      var found := FilterPapers(MockPapers, s.query, s.filter);
      if |found| > 0 then Results(found) else NoResults
  }

  /** A query of spaces opens the panel, and the panel says "No results found.". */
  lemma SpacesQueryShowsNoResults(s: State)
    requires s.query != ""
    requires forall k :: 0 <= k < |s.query| ==> s.query[k] == ' '
    ensures ResultsPanel(s) == NoResults
  {
    BlankQueryMatchesNothing(MockPapers, s.query, s.filter);
  }
}

=== FILE: js.dfy ===
/** JavaScript value conventions that the front-end relies on: optional (possibly undefined)
    fields, truthiness of strings, `String(...)` coercion, and the shape of a failed HTTP call. */
module Js {

  /** A field that may be absent (`undefined` or `null` in the source). */
  datatype Option<+T> = None | Some(value: T) {

    /** The value, or `default` when absent. */
    function GetOr(default: T): T {
      match this
      case Some(v) => v
      case None => default
    }
  }

  /** A string-valued field is truthy exactly when it is present and non-empty. */
  predicate Truthy(s: Option<string>) {
    s.Some? && s.value != ""
  }

  /** `s || fallback` for a string-valued field. */
  function Or(s: Option<string>, fallback: string): (r: string)
    ensures Truthy(s) ==> r == s.value
    ensures !Truthy(s) ==> r == fallback
  {
    if Truthy(s) then s.value else fallback
  }

  /** `String(s)`, and equally the text a template literal inserts for `${s}`:
      an absent value becomes the text "undefined". */
  function Coerce(s: Option<string>): (r: string)
    ensures s.Some? ==> r == s.value
    ensures s.None? ==> r == "undefined"
  {
    s.GetOr("undefined")
  }

  /** What a rejected HTTP call exposes: `err.response?.status`, `err.response?.data?.message`,
      `err.response?.data?.error` and `err.message`. A transport failure has no response, so its
      first three parts are absent. */
  datatype HttpError = HttpError(
    status: Option<int>,
    dataMessage: Option<string>,
    dataError: Option<string>,
    message: string)

  /** A response body as the pages inspect it: `null` or `undefined`, an array of records, an
      object (only its `data` field matters, `Nullish(false)` when it has none), or any other
      value, of which only truthiness matters. */
  datatype Json<+T> =
    | Nullish(isNull: bool)
    | Items(items: seq<T>)
    | Envelope(data: Json<T>)
    | Scalar(truthy: bool)

  /** JavaScript truthiness of a body: arrays and objects are truthy, `null` and `undefined` are not. */
  predicate JsonTruthy<T>(j: Json<T>) {
    match j
    case Nullish(_) => false
    case Items(_) => true
    case Envelope(_) => true
    case Scalar(t) => t
  }

  /** `j?.data || j`: the `data` field of an object when it is truthy, else the body itself.
      Arrays and other values have no `data` field. */
  function DataOr<T>(j: Json<T>): (r: Json<T>)
    ensures j.Envelope? && JsonTruthy(j.data) ==> r == j.data
    ensures !(j.Envelope? && JsonTruthy(j.data)) ==> r == j
    ensures r.Nullish? <==> j.Nullish?
  {
    if j.Envelope? && JsonTruthy(j.data) then j.data else j
  }

  /** The message of the `TypeError` raised by reading property `name` of `null` or `undefined`,
      in the wording of the V8 engine. */
  function NullishReadMessage(isNull: bool, name: string): (msg: string)
    ensures msg != ""
  {
    "Cannot read properties of " + (if isNull then "null" else "undefined") + " (reading '" + name + "')"
  }

  /** The settled result of one awaited backend call. */
  datatype Fetch<+T> = Ok(value: T) | Err(error: HttpError)
}

=== FILE: loginpage.dfy ===
/** The login and signup form: field checks before any call, then the reply or the thrown error
    decides between an error message and a welcome followed by navigation home. */
module LoginPage {
  import opened Js
  import opened AuthServices
  import AuthContext

  datatype Fields = Fields(
    email: string,
    password: string,
    fname: string,
    lname: string,
    username: string,
    institution: string)

  datatype Page = Page(
    isSignup: bool,
    fields: Fields,
    error: string,
    loading: bool,
    welcome: string)

  const SignupFieldsMessage := "All fields are required for signup"
  const LoginFieldsMessage := "Email and password are required for login"
  const GenericError := "An error occurred"
  const Home := "/"

  /** The check made before calling: all six fields in signup mode, email and password in login mode. */
  function MissingFields(p: Page): (msg: Option<string>)
    ensures p.isSignup ==> (msg.Some? <==> "" in [p.fields.fname, p.fields.lname, p.fields.institution,
      p.fields.username, p.fields.email, p.fields.password])
    ensures !p.isSignup ==> (msg.Some? <==> p.fields.email == "" || p.fields.password == "")
    ensures msg.Some? ==> msg.value == if p.isSignup then SignupFieldsMessage else LoginFieldsMessage
  {
    var f := p.fields;
    if p.isSignup then
      if f.fname == "" || f.lname == "" || f.institution == "" || f.username == "" || f.email == "" || f.password == ""
      then Some(SignupFieldsMessage) else None
    else if f.email == "" || f.password == "" then Some(LoginFieldsMessage) else None
  }

  /** What the awaited handler did: returned a reply, or threw an error with an optional message. */
  datatype Answer = Answered(reply: Reply) | Raised(message: Option<string>)

  /** The greeting: the first name, else the username (absent reads "undefined"). */
  function Welcome(u: UserObj): (w: string)
    ensures Truthy(u.fname) ==> w == "Welcome " + u.fname.value + "!"
    ensures !Truthy(u.fname) ==> w == "Welcome " + Coerce(u.username) + "!"
  {
    "Welcome " + Coerce(if Truthy(u.fname) then u.fname else u.username) + "!"
  }

  /** The page after a submit, whether the handler was called, and where it navigated, if anywhere. */
  datatype Submitted = Submitted(page: Page, called: bool, navigation: Option<string>)

  /** A submit: the error is cleared and loading set; a failed field check sets its message and
      makes no call. Otherwise a reply with an error shows it, a reply with a user and a token
      greets and goes home, a thrown error shows its message or a generic one. Loading ends on
      every path. */
  function HandleSubmit(p: Page, answer: Answer): (r: Submitted)
    ensures !r.page.loading
    ensures r.page.isSignup == p.isSignup && r.page.fields == p.fields
    ensures r.called <==> MissingFields(p).None?
    ensures !r.called ==> r.page == p.(error := MissingFields(p).value, loading := false)
    ensures r.called && answer.Answered? && Truthy(answer.reply.error) ==>
      r.page == p.(error := answer.reply.error.value, loading := false)
    ensures r.called && answer.Raised? ==> r.page == p.(error := Or(answer.message, GenericError), loading := false)
    // a reply without an error leaves the cleared error in place, greeting or not
    ensures r.called && answer.Answered? && !Truthy(answer.reply.error) ==>
      r.page == p.(error := "", loading := false, welcome := r.page.welcome)
    ensures r.navigation.None? ==> r.page.welcome == p.welcome
    ensures r.navigation.Some? ==> r.navigation == Some(Home)
    ensures r.navigation.Some? <==>
      r.called && answer.Answered? && !Truthy(answer.reply.error)
      && answer.reply.user.Some? && Truthy(answer.reply.token)
    ensures r.navigation.Some? ==> r.page.welcome == Welcome(answer.reply.user.value)
  {
    var started := p.(error := "", loading := true);
    match MissingFields(p)
    case Some(msg) => Submitted(started.(error := msg, loading := false), false, None)
    case None =>
      var done := started.(loading := false);
      match answer
      case Raised(m) => Submitted(done.(error := Or(m, GenericError)), true, None)
      case Answered(reply) =>
        if Truthy(reply.error) then Submitted(done.(error := reply.error.value), true, None)
        else if reply.user.Some? && Truthy(reply.token) then
          Submitted(done.(welcome := Welcome(reply.user.value)), true, Some(Home))
        else Submitted(done, true, None)
  }

  /** The login the form starts, carried through the session: it answers with the handler's reply. */
  function LoginAnswer(s: AuthContext.Session, outcome: Fetch<Reply>): (a: Answer)
    ensures a.Answered?
  {
    Answered(AuthContext.HandleLogin(s, outcome).1.reply)
  }

  /** With both fields filled and a backend reply carrying a token and a user, the user is
      signed in and the form greets them and goes home. */
  lemma LoginFlowGoesHome(p: Page, s: AuthContext.Session, body: Reply)
    requires !p.isSignup && p.fields.email != "" && p.fields.password != ""
    requires Truthy(body.token) && body.user.Some? && !Truthy(body.error)
    ensures var r := HandleSubmit(p, LoginAnswer(s, Ok(body)));
      r.navigation == Some(Home) && r.page.welcome == Welcome(body.user.value)
    ensures AuthContext.IsAuthenticated(AuthContext.HandleLogin(s, Ok(body)).0)
  {
    AuthContext.LoginSignsIn(s, body);
  }

  /** A rejected login shows the server's message, or "Login failed", and stays on the form. */
  lemma RejectedLoginShowsError(p: Page, s: AuthContext.Session, e: HttpError)
    requires !p.isSignup && p.fields.email != "" && p.fields.password != ""
    ensures var r := HandleSubmit(p, LoginAnswer(s, Err(e)));
      r.page.error == Or(e.dataMessage, LoginFailed) && r.navigation.None?
  {
  }

  /** An empty password never reaches the backend, in either mode. */
  lemma EmptyPasswordNotSent(p: Page, answer: Answer)
    requires p.fields.password == ""
    ensures !HandleSubmit(p, answer).called
  {
  }
}

=== FILE: paperdata.dfy ===
/** The paper-detail data hook: it resolves one paper together with the category list and the
    user list, and offers the category-name and user-name lookups the detail view needs. The
    category and user fetches are best-effort: a failed call leaves an empty list. A body that is
    `null` or `undefined`, however, makes the final `.length` read throw after the paper was set,
    and that error is reported like a failed paper fetch. */
module PaperData {
  import opened Js
  import opened Text
  import opened Seqs
  import opened Entities

  datatype State = State(
    paper: Option<Paper>,
    categories: seq<Category>,
    users: seq<Account>,
    loading: bool,
    error: Option<string>)

  const Initial := State(None, [], [], true, None)

  /** A backend call the hook issued, in issue order. */
  datatype Request = CategoriesRequest | PaperRequest(id: string) | UsersRequest

  datatype Resolution = Resolution(state: State, requests: seq<Request>)

  const NoIdMessage := "No paper ID provided"
  const NotFoundMessage := "Paper not found. Please check the paper ID."
  const ForbiddenMessage := "Access denied. You don't have permission to view this paper."
  const EmptyPaperMessage := "Paper data is empty or invalid"

  /** The message a failed paper fetch turns into, chosen by the response status. */
  function PaperErrorMessage(e: HttpError): (msg: string)
    ensures e.status == Some(404) ==> msg == NotFoundMessage
    ensures e.status == Some(403) ==> msg == ForbiddenMessage
    ensures e.status != Some(404) && e.status != Some(403) ==> msg == "Failed to load paper: " + e.message
    ensures msg != ""
  {
    if e.status == Some(404) then NotFoundMessage
    else if e.status == Some(403) then ForbiddenMessage
    else "Failed to load paper: " + e.message
  }

  /** The value a collection fetch leaves in `categoriesData` or `usersData`: the initial `[]`
      after a failed call, else `body?.data || body`. */
  function Received<T>(r: Fetch<Json<T>>): Json<T> {
    if r.Err? then Items([]) else DataOr(r.value)
  }

  /** `Array.isArray(x) ? x : []` over the received value: an array body, or an array under a
      `data` field, is kept; a failed call and every other body give the empty list. */
  function ArrayOrEmpty<T>(r: Fetch<Json<T>>): (xs: seq<T>)
    ensures r.Err? ==> xs == []
    ensures r.Ok? && r.value.Items? ==> xs == r.value.items
    ensures r.Ok? && r.value.Envelope? && r.value.data.Items? ==> xs == r.value.data.items
    ensures r.Ok? && (r.value.Nullish? || r.value.Scalar?) ==> xs == []
  {
    var j := Received(r);
    if j.Items? then j.items else []
  }

  /** The error raised by reading `.length` of the received value: only a `null` or `undefined`
      body raises one; a failed call, an array and any other value do not. */
  function LengthError<T>(r: Fetch<Json<T>>): (e: Option<string>)
    ensures e.Some? <==> r.Ok? && r.value.Nullish?
    ensures e.Some? ==> e.value == NullishReadMessage(r.value.isNull, "length")
  {
    var j := Received(r);
    if j.Nullish? then Some(NullishReadMessage(j.isNull, "length")) else None
  }

  /** The fetch effect for `paperId`, starting from `prev`. The three results are inputs: the
      category list, the paper (`None` when the body is empty), and the user list. Categories are
      fetched first, then the paper; the users only when the paper fetch succeeded. */
  function FetchData(
    prev: State,
    paperId: Option<string>,
    categories: Fetch<Json<Category>>,
    paper: Fetch<Option<Paper>>,
    users: Fetch<Json<Account>>): (r: Resolution)
    // without an id nothing is requested and only the error and loading flags change
    ensures !Truthy(paperId) ==>
      r.requests == [] && r.state == prev.(error := Some(NoIdMessage), loading := false)
    // a failed paper fetch is fatal: the error is set and the previous data stays
    ensures Truthy(paperId) && paper.Err? ==>
      && r.requests == [CategoriesRequest, PaperRequest(paperId.value)]
      && r.state == prev.(error := Some(PaperErrorMessage(paper.error)), loading := false)
    // an empty paper body is fatal too, but only after the users were requested
    ensures Truthy(paperId) && paper.Ok? ==>
      r.requests == [CategoriesRequest, PaperRequest(paperId.value), UsersRequest]
    ensures Truthy(paperId) && paper == Ok(None) ==>
      r.state == prev.(error := Some(EmptyPaperMessage), loading := false)
    // a paper is set whatever became of the categories and users ...
    ensures Truthy(paperId) && paper.Ok? && paper.value.Some? ==>
      && r.state.paper == paper.value && !r.state.loading
      && r.state.categories == ArrayOrEmpty(categories) && r.state.users == ArrayOrEmpty(users)
    // ... and the error stays clear unless a `null` or `undefined` list body throws, categories first
    ensures Truthy(paperId) && paper.Ok? && paper.value.Some? ==>
      (r.state.error.None? <==> LengthError(categories).None? && LengthError(users).None?)
    ensures Truthy(paperId) && paper.Ok? && paper.value.Some? && LengthError(categories).Some? ==>
      r.state.error == LengthError(categories)
    ensures Truthy(paperId) && paper.Ok? && paper.value.Some? && LengthError(categories).None? ==>
      r.state.error == LengthError(users)
    ensures !r.state.loading
  {
    if !Truthy(paperId) then
      Resolution(prev.(error := Some(NoIdMessage), loading := false), [])
    else
      var asked := [CategoriesRequest, PaperRequest(paperId.value)];
      match paper
      case Err(e) => Resolution(prev.(error := Some(PaperErrorMessage(e)), loading := false), asked)
      case Ok(None) => Resolution(prev.(error := Some(EmptyPaperMessage), loading := false), asked + [UsersRequest])
      case Ok(Some(p)) =>
        var thrown := if LengthError(categories).Some? then LengthError(categories) else LengthError(users);
        Resolution(State(Some(p), ArrayOrEmpty(categories), ArrayOrEmpty(users), false, thrown), asked + [UsersRequest])
  }

  /** The category and user fetches influence the error only through the `.length` read: two
      runs whose list bodies raise the same errors there (none, typically) end with the same
      error, whatever else the fetches returned or however they failed. */
  lemma ErrorComesFromPaperOnly(
    prev: State, paperId: Option<string>,
    c1: Fetch<Json<Category>>, c2: Fetch<Json<Category>>,
    paper: Fetch<Option<Paper>>,
    u1: Fetch<Json<Account>>, u2: Fetch<Json<Account>>)
    requires LengthError(c1) == LengthError(c2) && LengthError(u1) == LengthError(u2)
    ensures FetchData(prev, paperId, c1, paper, u1).state.error
      == FetchData(prev, paperId, c2, paper, u2).state.error
  {
  }

  // ---------------------------------------------------------------- category name

  const Unknown := "Unknown"

  /** The match used by `getCategoryName`: `_id` or `category_id` strictly equals the paper's
      `category_id`, or `String(_id)` equals `String(category_id)`. */
  predicate CategoryMatches(c: Category, p: Paper) {
    Some(c.id) == p.categoryId || c.categoryId == p.categoryId || c.id == Coerce(p.categoryId)
  }

  /** `i` is the index of the first category that matches `p`. */
  predicate FirstMatching(categories: seq<Category>, p: Paper, i: int) {
    0 <= i < |categories| && CategoryMatches(categories[i], p)
    && forall j :: 0 <= j < i ==> !CategoryMatches(categories[j], p)
  }

  /** `category_name || category`. */
  function CategoryTitle(c: Category): Option<string> {
    if Truthy(c.categoryName) then c.categoryName else c.category
  }

  /** `getCategoryName`: "Unknown" without a paper, without categories or without a match;
      otherwise the title of the first matching category. */
  function CategoryName(paper: Option<Paper>, categories: seq<Category>): (r: Option<string>)
    ensures paper.None? || |categories| == 0 ==> r == Some(Unknown)
    ensures paper.Some? && (forall i :: 0 <= i < |categories| ==> !CategoryMatches(categories[i], paper.value))
      ==> r == Some(Unknown)
    ensures paper.Some? ==> forall i :: FirstMatching(categories, paper.value, i) ==>
      r == CategoryTitle(categories[i])
  {
    if paper.None? || |categories| == 0 then Some(Unknown)
    else match FindFirst(categories, (c: Category) => CategoryMatches(c, paper.value))
      case None => Some(Unknown)
      case Some(k) =>
        assert forall i :: FirstMatching(categories, paper.value, i) ==> i == k;
        CategoryTitle(categories[k])
  }

  /** Two absent `category_id`s are strictly equal: a paper filed without a category takes the
      name of the first category that also lacks `category_id`. */
  lemma AbsentCategoryIdsMatch(p: Paper, c: Category)
    requires p.categoryId.None? && c.categoryId.None? && Truthy(c.categoryName)
    ensures CategoryName(Some(p), [c]) == c.categoryName
  {
  }

  // ---------------------------------------------------------------- user name

  const UnknownUser := "Unknown User"

  /** "User " and the last four characters of the id. */
  function ShortId(userId: string): (r: string)
    ensures StartsWith(r, "User ") && EndsWith(userId, r[5..])
    ensures |r| == 5 + (if |userId| < 4 then |userId| else 4)
  {
    "User " + TakeLast(userId, 4)
  }

  /** The name shown for a matched user: "fname lname" when both are set, else the username,
      else the email, else the short id. */
  function AccountName(u: Account, userId: string): string {
    if Truthy(u.fname) && Truthy(u.lname) then u.fname.value + " " + u.lname.value
    else if Truthy(u.username) then u.username.value
    else if Truthy(u.email) then u.email.value
    else ShortId(userId)
  }

  /** `u._id === userId || String(u._id) === String(userId)`, which for a string id is equality. */
  predicate HasId(u: Account, userId: string) {
    u.id == userId
  }

  /** `i` is the index of the first user with the given id. */
  predicate FirstWithId(users: seq<Account>, userId: string, i: int) {
    0 <= i < |users| && HasId(users[i], userId) && forall j :: 0 <= j < i ==> !HasId(users[j], userId)
  }

  /** `getUserName`. For a string id, `u._id === userId` and `String(u._id) === String(userId)`
      coincide with plain equality. */
  function UserName(userId: Option<string>, users: seq<Account>): (r: string)
    ensures !Truthy(userId) ==> r == UnknownUser
    ensures Truthy(userId) && (forall i :: 0 <= i < |users| ==> !HasId(users[i], userId.value))
      ==> r == ShortId(userId.value)
    ensures Truthy(userId) ==> forall i :: FirstWithId(users, userId.value, i) ==>
      r == AccountName(users[i], userId.value)
  {
    if !Truthy(userId) then UnknownUser
    else if |users| == 0 then ShortId(userId.value)
    else match FindFirst(users, (u: Account) => HasId(u, userId.value))
      case None => ShortId(userId.value)
      case Some(k) =>
        assert forall i :: FirstWithId(users, userId.value, i) ==> i == k;
        AccountName(users[k], userId.value)
  }

  // ---------------------------------------------------------------- scenarios

  /** A failed category fetch still sets the paper, with category "Unknown"; the error stays
      clear unless the user body is `null` or `undefined`. */
  lemma CategoryFailureDegrades(prev: State, id: string, e: HttpError, p: Paper,
                                users: Fetch<Json<Account>>)
    requires id != ""
    ensures var s := FetchData(prev, Some(id), Err(e), Ok(Some(p)), users).state;
      s.paper == Some(p) && !s.loading && CategoryName(s.paper, s.categories) == Some(Unknown)
      && (s.error.None? <==> !(users.Ok? && users.value.Nullish?))
  {
  }

  /** A failed user fetch still sets the paper, and every author then shows as a short id; the
      error stays clear unless the category body is `null` or `undefined`. */
  lemma UserFailureDegrades(prev: State, id: string, cats: Fetch<Json<Category>>, p: Paper,
                            e: HttpError, author: string)
    requires id != "" && author != ""
    ensures var s := FetchData(prev, Some(id), cats, Ok(Some(p)), Err(e)).state;
      s.paper == Some(p) && UserName(Some(author), s.users) == ShortId(author)
      && (s.error.None? <==> !(cats.Ok? && cats.value.Nullish?))
  {
  }

  /** A `null` category body sets the paper and then fails the whole resolution with the
      `TypeError` of the `.length` read, whatever the user fetch returned. */
  lemma NullCategoriesFailAfterPaper(prev: State, id: string, p: Paper, users: Fetch<Json<Account>>)
    requires id != ""
    ensures var s := FetchData(prev, Some(id), Ok(Nullish(true)), Ok(Some(p)), users).state;
      s.paper == Some(p) && s.error == Some("Cannot read properties of null (reading 'length')")
  {
    assert NullishReadMessage(true, "length") == "Cannot read properties of null (reading 'length')";
  }

  /** A 404 on the paper leaves the hook with the not-found message and loading finished. */
  lemma NotFoundReported(id: string, cats: Fetch<Json<Category>>, e: HttpError,
                         users: Fetch<Json<Account>>)
    requires id != "" && e.status == Some(404)
    ensures var s := FetchData(Initial, Some(id), cats, Err(e), users).state;
      s.error == Some(NotFoundMessage) && !s.loading && s.paper.None?
  {
  }
}

=== FILE: paperdetails.dfy ===
/** The paper detail card: a header whose gradient is picked by hashing the paper id, the
    description, a download link, the co-author names, the tags and the metadata. */
module PaperDetails {
  import opened Js
  import opened Text
  import opened Seqs
  import opened Entities
  import opened FileLinks
  import PaperData

  const Gradients: seq<string> := [
    "from-blue-500 to-purple-500",
    "from-green-500 to-teal-400",
    "from-red-500 to-yellow-500",
    "from-indigo-500 to-blue-400",
    "from-pink-500 to-rose-400"
  ]

  /** `getStringHash(paper._id) % gradients.length`: the sum of the id's UTF-16 code units
      modulo the number of gradients, so always a valid index. */
  function GradientIndex(id: string): (k: nat)
    ensures k < |Gradients|
  {
    CodeUnitSum(id) % |Gradients|
  }

  /** Remainders modulo the number of gradients add up. */
  lemma ModOfSum(x: nat, y: nat)
    ensures (x + y) % 5 == (x % 5 + y % 5) % 5
  {
    var q, r := x / 5, y / 5;
    assert x + y == 5 * (q + r) + (x % 5 + y % 5);
  }

  /** The base cases of the hash: the empty id takes the first gradient, and a one-character id
      in the Basic Multilingual Plane the gradient at its character code modulo five. With
      `GradientOfConcat` these fix the gradient of every such id. */
  lemma GradientOfShortIds(c: char)
    ensures GradientIndex("") == 0
    ensures (c as int) < 0x10000 ==> GradientIndex([c]) == (c as int) % 5
  {
    assert [c][1..] == "";
  }

  /** The hash is additive, so the index of a concatenation follows from the parts. */
  lemma GradientOfConcat(a: string, b: string)
    ensures GradientIndex(a + b) == (GradientIndex(a) + GradientIndex(b)) % |Gradients|
  {
    CodeUnitSumConcat(a, b);
    ModOfSum(CodeUnitSum(a), CodeUnitSum(b));
  }

  /** The index ignores the order of the parts: ids that are rotations of each other share a gradient. */
  lemma GradientIgnoresOrder(a: string, b: string)
    ensures GradientIndex(a + b) == GradientIndex(b + a)
  {
    CodeUnitSumConcat(a, b);
    CodeUnitSumConcat(b, a);
    assert CodeUnitSum(a + b) == CodeUnitSum(b + a);
  }

  const UnknownCategory := "Unknown"
  const NoDescription := "No description available."
  const UnknownAuthor := "Unknown Author"

  /** `categoryName || "Unknown"`: the name it is given when that is non-empty, else "Unknown". */
  function CategoryLabel(categoryName: Option<string>): (shown: string)
    ensures Truthy(categoryName) ==> shown == categoryName.value
    ensures !Truthy(categoryName) ==> shown == UnknownCategory
  {
    Or(categoryName, UnknownCategory)
  }

  /** The header label for the category the page looks up: "Unknown" when no category matches
      the paper, otherwise the first match's `category_name`, falling back to its `category`
      and then to "Unknown" when both are blank. */
  lemma CategoryLabelOfLookup(p: Paper, categories: seq<Category>)
    ensures (forall i :: 0 <= i < |categories| ==> !PaperData.CategoryMatches(categories[i], p)) ==>
      CategoryLabel(PaperData.CategoryName(Some(p), categories)) == UnknownCategory
    ensures forall i :: PaperData.FirstMatching(categories, p, i) && Truthy(categories[i].categoryName) ==>
      CategoryLabel(PaperData.CategoryName(Some(p), categories)) == categories[i].categoryName.value
    ensures forall i :: PaperData.FirstMatching(categories, p, i) && !Truthy(categories[i].categoryName) ==>
      CategoryLabel(PaperData.CategoryName(Some(p), categories)) == Or(categories[i].category, UnknownCategory)
  {
  }

  /** `paper.description || "No description available."`: the description itself when it is
      non-empty, otherwise the placeholder. */
  function DescriptionText(p: Paper): (text: string)
    ensures Truthy(p.description) ==> text == p.description.value
    ensures !Truthy(p.description) ==> text == NoDescription
    ensures text != ""
  {
    Or(p.description, NoDescription)
  }

  /** The co-author line for `id`: the first user whose `_id` strictly equals it, shown as
      `${fname} ${lname}` (an absent part reads "undefined"), else "Unknown Author". */
  function AuthorName(id: string, users: seq<Account>): (r: string)
    ensures (forall i :: 0 <= i < |users| ==> !PaperData.HasId(users[i], id)) ==> r == UnknownAuthor
    ensures forall i :: PaperData.FirstWithId(users, id, i) ==>
      r == Coerce(users[i].fname) + " " + Coerce(users[i].lname)
  {
    match FindFirst(users, (u: Account) => PaperData.HasId(u, id))
    case None => UnknownAuthor
    case Some(k) =>
      assert forall i :: PaperData.FirstWithId(users, id, i) ==> i == k;
      Coerce(users[k].fname) + " " + Coerce(users[k].lname)
  }

  datatype CoauthorsView = NoCoauthors | CoauthorNames(names: seq<string>)

  /** "No co-authors listed." for a missing or empty list, else one name per id, in order. */
  function Coauthors(p: Paper, users: seq<Account>): (v: CoauthorsView)
    ensures v.NoCoauthors? <==> p.coauthors.None? || |p.coauthors.value| == 0
    ensures v.CoauthorNames? ==> |v.names| == |p.coauthors.value|
    ensures v.CoauthorNames? ==> forall k :: 0 <= k < |v.names| ==>
      v.names[k] == AuthorName(p.coauthors.value[k], users)
  {
    if p.coauthors.None? || |p.coauthors.value| == 0 then NoCoauthors
    else
      var ids := p.coauthors.value;
      CoauthorNames(seq(|ids|, k requires 0 <= k < |ids| => AuthorName(ids[k], users)))
  }

  datatype TagsView = NoTags | TagChips(chips: seq<string>)

  /** "#tag" per tag for a non-empty list, else "No tags available.". */
  function Tags(p: Paper): (v: TagsView)
    ensures v.NoTags? <==> p.tags.None? || |p.tags.value| == 0
    ensures v.TagChips? ==> |v.chips| == |p.tags.value|
    ensures v.TagChips? ==> forall k :: 0 <= k < |v.chips| ==> v.chips[k] == "#" + p.tags.value[k]
  {
    if p.tags.None? || |p.tags.value| == 0 then NoTags
    else
      var tags := p.tags.value;
      TagChips(seq(|tags|, k requires 0 <= k < |tags| => "#" + tags[k]))
  }

  /** The metadata section: only for an object with at least one key, one "key: value" line
      per entry. A string `meta` is not an object and shows nothing. */
  function MetaLines(p: Paper): (lines: Option<seq<string>>)
    ensures lines.Some? <==> p.meta.MetaObject? && |p.meta.entries| > 0
    ensures lines.Some? ==> |lines.value| == |p.meta.entries|
    ensures lines.Some? ==> forall k :: 0 <= k < |lines.value| ==>
      lines.value[k] == p.meta.entries[k].0 + ": " + p.meta.entries[k].1
  {
    match p.meta
    case MetaObject(entries) =>
      if |entries| == 0 then None
      else Some(seq(|entries|, k requires 0 <= k < |entries| => entries[k].0 + ": " + entries[k].1))
    case _ => None
  }

  /** The download link: the API root followed by the raw `file_url`, present only when the
      paper has one. The `../uploads` rewrite is not applied here. */
  function DownloadHref(base: string, p: Paper): (href: Option<string>)
    ensures href.Some? <==> Truthy(p.fileUrl)
    ensures href.Some? ==> href.value == ApiRoot(base) + p.fileUrl.value
  {
    if Truthy(p.fileUrl) then Some(ApiRoot(base) + p.fileUrl.value) else None
  }

  /** For a legacy `../uploads` path the download link differs from the resolved preview link:
      it keeps the two dots that resolution drops. */
  lemma DownloadSkipsRewrite(base: string, p: Paper)
    requires p.fileUrl.Some? && StartsWith(p.fileUrl.value, LegacyUploads)
    ensures DownloadHref(base, p).Some?
    ensures DownloadHref(base, p).value != Resolve(base, p.fileUrl.value)
  {
    LegacyPathRewritten(base, p.fileUrl.value);
    assert |DownloadHref(base, p).value| == |Resolve(base, p.fileUrl.value)| + 2;
  }

  datatype View = View(
    gradient: string,
    title: Option<string>,
    category: string,
    description: string,
    download: Option<string>,
    coauthors: CoauthorsView,
    tags: TagsView,
    meta: Option<seq<string>>)

  /** The whole card: the hashed gradient, the title, the category label, the description or its
      placeholder, the download link only for a paper with a file, and the three lists. */
  function Render(base: string, p: Paper, categoryName: Option<string>, users: seq<Account>): (v: View)
    ensures v.gradient in Gradients && v.gradient == Gradients[GradientIndex(p.id)]
    ensures v.title == p.name
    ensures v.category == CategoryLabel(categoryName) && v.description == DescriptionText(p)
    ensures v.download.Some? <==> Truthy(p.fileUrl)
    ensures v.download == DownloadHref(base, p)
    ensures v.coauthors == Coauthors(p, users) && v.tags == Tags(p) && v.meta == MetaLines(p)
  {
    View(Gradients[GradientIndex(p.id)], p.name, CategoryLabel(categoryName), DescriptionText(p),
      DownloadHref(base, p), Coauthors(p, users), Tags(p), MetaLines(p))
  }
}

=== FILE: paperlist.dfy ===
/** The list of filtered papers: one card per paper, in order, with a detail link, the title,
    a shortened description and a link to the stored file. */
module PaperList {
  import opened Js
  import opened Text
  import opened Entities
  import opened FileLinks
  import SinglePage
  import PaperDetails

  const SummaryLength := 100
  const Ellipsis := "..."

  /** A description longer than 100 characters becomes its first 100 followed by "...". */
  function Truncate(d: string): (r: string)
    ensures |r| <= SummaryLength + |Ellipsis|
    ensures |d| <= SummaryLength ==> r == d
    ensures |d| > SummaryLength ==> |r| == SummaryLength + |Ellipsis| && r[..SummaryLength] == d[..SummaryLength]
    ensures |d| > SummaryLength ==> EndsWith(r, Ellipsis)
  {
    if |d| > SummaryLength then d[..SummaryLength] + Ellipsis else d
  }

  /** Truncating twice cuts the already cut text once more, because 103 exceeds 100. */
  lemma TruncateTwice(d: string)
    requires |d| > SummaryLength
    ensures Truncate(Truncate(d)) == d[..SummaryLength] + Ellipsis
  {
    var once := Truncate(d);
    assert once[..SummaryLength] == d[..SummaryLength];
  }

  /** The route of a paper's detail page. */
  function DetailLink(p: Paper): (link: string)
    ensures StartsWith(link, "/browser/") && link[|"/browser/"|..] == p.id
  {
    "/browser/" + p.id
  }

  datatype Card = Card(link: string, title: Option<string>, summary: string, fileHref: string)

  /** A card can be rendered only when the paper has a description and a `file_url`:
      reading `.length` or `.startsWith` of an absent field throws. */
  predicate Renderable(p: Paper) {
    p.description.Some? && p.fileUrl.Some?
  }

  function CardFor(base: string, p: Paper): Card
    requires Renderable(p)
  {
    Card(DetailLink(p), p.name, Truncate(p.description.value), Resolve(base, p.fileUrl.value))
  }

  /** The cards of the list, one per paper in order; `None` when some paper lacks a description
      or a `file_url`, as the whole list then fails to render. */
  method RenderCards(base: string, papers: seq<Paper>) returns (cards: Option<seq<Card>>)
    ensures cards.None? <==> exists i :: 0 <= i < |papers| && !Renderable(papers[i])
    ensures cards.Some? ==> |cards.value| == |papers|
    ensures cards.Some? ==> forall i :: 0 <= i < |papers| ==>
      Renderable(papers[i]) && cards.value[i] == CardFor(base, papers[i])
  {
    var acc: seq<Card> := [];
    var i := 0;
    while i < |papers|
      invariant 0 <= i <= |papers|
      invariant |acc| == i
      invariant forall k :: 0 <= k < i ==> Renderable(papers[k]) && acc[k] == CardFor(base, papers[k])
    {
      if !Renderable(papers[i]) {
        return None;
      }
      acc := acc + [CardFor(base, papers[i])];
      i := i + 1;
    }
    return Some(acc);
  }

  /** The card's summary is the start of the description the detail page shows in full; only an
      empty description differs, which the card leaves blank and the detail page replaces. */
  lemma CardSummaryMatchesDetails(base: string, p: Paper)
    requires Renderable(p)
    ensures p.description.value == "" ==>
      CardFor(base, p).summary == "" && PaperDetails.DescriptionText(p) == PaperDetails.NoDescription
    ensures p.description.value != "" && |p.description.value| <= SummaryLength ==>
      CardFor(base, p).summary == PaperDetails.DescriptionText(p)
    ensures |p.description.value| > SummaryLength ==>
      StartsWith(CardFor(base, p).summary, PaperDetails.DescriptionText(p)[..SummaryLength])
  {
  }

  /** A card's file link is the very link the paper page previews. */
  lemma CardLinkMatchesPreview(base: string, p: Paper)
    requires Renderable(p) && p.fileUrl.value != ""
    ensures CardFor(base, p).fileHref == SinglePage.ResolvedFileUrl(base, Some(p))
  {
  }
}

=== FILE: profile.dfy ===
/** The profile page's list of the user's own papers: loading them for the stored user, choosing
    one to edit, deleting by id behind a confirmation dialog. */
module Profile {
  import opened Js
  import opened Seqs
  import opened Entities
  import opened AuthServices

  datatype State = State(
    user: Option<UserObj>,
    papers: seq<Paper>,
    error: Option<string>,
    modalOpen: bool,
    paperToEdit: Option<Paper>,
    deleteOpen: bool,
    paperToDelete: Option<string>,
    successMessage: string)

  const Initial := State(None, [], None, false, None, false, None, "")

  const FetchFailed := "Failed to fetch user papers"
  const DeleteFailed := "Failed to delete paper"
  const UpdateFailed := "Failed to update the paper"
  const Deleted := "Paper deleted successfully."

  /** The page shows only "Loading Profile..." while no user is set. */
  predicate ShowsLoading(s: State) {
    s.user.None?
  }

  /** `fetchUserPapers`: the list on success, the fetch error message on failure. */
  function FetchUserPapers(s: State, papers: Fetch<seq<Paper>>): (t: State)
    ensures papers.Ok? ==> t == s.(papers := papers.value)
    ensures papers.Err? ==> t == s.(error := Some(FetchFailed))
  {
    match papers
    case Ok(ps) => s.(papers := ps)
    case Err(_) => s.(error := Some(FetchFailed))
  }

  /** The mount effect either crashes (the stored text is not JSON) or leaves a state together
      with the user ids whose papers it requested. */
  datatype Mount = Crashed | Mounted(state: State, requested: seq<Option<string>>)

  /** Without a stored user nothing is requested; a stored record becomes the user and its `id`
      is asked for; stored text that is not JSON makes the parse throw. */
  function OnMount(stored: Option<StoredUser>, papers: Fetch<seq<Paper>>): (m: Mount)
    ensures m.Crashed? <==> stored.Some? && stored.value.Text? && stored.value.text != ""
    ensures m.Mounted? && m.requested == [] ==> m.state == Initial
    ensures m.Mounted? ==> (m.requested != [] <==> stored.Some? && stored.value.Json?)
    ensures m.Mounted? && m.requested != [] ==>
      m.requested == [stored.value.user.id]
      && m.state == FetchUserPapers(Initial.(user := Some(stored.value.user)), papers)
  {
    match stored
    case None => Mounted(Initial, [])
    case Some(Json(u)) => Mounted(FetchUserPapers(Initial.(user := Some(u)), papers), [u.id])
    case Some(Text(t)) => if t == "" then Mounted(Initial, []) else Crashed
  }

  /** Signed out, the profile stays on its loading text and asks for nothing. */
  lemma SignedOutStaysLoading(papers: Fetch<seq<Paper>>)
    ensures OnMount(None, papers) == Mounted(Initial, [])
    ensures ShowsLoading(OnMount(None, papers).state)
  {
  }

  predicate HasPaperId(p: Paper, id: string) {
    p.id == id
  }

  /** Index `i` holds the first paper with that id. */
  predicate FirstWithPaperId(papers: seq<Paper>, id: string, i: int) {
    0 <= i < |papers| && papers[i].id == id && forall j :: 0 <= j < i ==> papers[j].id != id
  }

  /** `handleEdit`: the first paper with that id is chosen and the modal opens; an unknown id
      changes nothing. */
  function HandleEdit(s: State, id: string): (t: State)
    ensures (forall i :: 0 <= i < |s.papers| ==> s.papers[i].id != id) ==> t == s
    ensures (exists i :: 0 <= i < |s.papers| && s.papers[i].id == id) ==>
      t.modalOpen && t.paperToEdit.Some? && t.paperToEdit.value.id == id && t.paperToEdit.value in s.papers
      && t == s.(modalOpen := true, paperToEdit := t.paperToEdit)
    ensures forall i :: FirstWithPaperId(s.papers, id, i) ==> t.paperToEdit == Some(s.papers[i])
  {
    match FindFirst(s.papers, (p: Paper) => HasPaperId(p, id))
    case None => s
    case Some(k) =>
      assert forall i :: FirstWithPaperId(s.papers, id, i) ==> i == k;
      s.(modalOpen := true, paperToEdit := Some(s.papers[k]))
  }

  /** `handleCloseModal`. */
  function HandleCloseModal(s: State): (t: State)
    ensures !t.modalOpen && t.paperToEdit.None?
    ensures t.(modalOpen := s.modalOpen, paperToEdit := s.paperToEdit) == s
  {
    s.(modalOpen := false, paperToEdit := None)
  }

  /** Choosing a paper and closing the modal returns to where the page was, when no modal was open. */
  lemma EditThenCloseRestores(s: State, id: string)
    requires !s.modalOpen && s.paperToEdit.None?
    ensures HandleCloseModal(HandleEdit(s, id)) == s
  {
  }

  /** `handleDelete` for `id` (an absent id when the dialog was opened without one). On success
      every paper with that id is removed, the others keep their order, and the success message
      shows; on failure the list stays and the failure message shows. */
  function HandleDelete(s: State, id: Option<string>, outcome: Fetch<()>): (t: State)
    ensures outcome.Ok? ==> t == s.(papers := t.papers, successMessage := Deleted)
    ensures outcome.Ok? ==> forall i :: 0 <= i < |t.papers| ==> Some(t.papers[i].id) != id
    ensures outcome.Ok? ==> forall i :: 0 <= i < |s.papers| && Some(s.papers[i].id) != id ==> s.papers[i] in t.papers
    ensures outcome.Ok? ==> IsSubsequence(t.papers, s.papers)
    ensures outcome.Err? ==> t == s.(error := Some(DeleteFailed))
  {
    match outcome
    case Ok(_) => s.(papers := Filter(s.papers, (p: Paper) => Some(p.id) != id), successMessage := Deleted)
    case Err(_) => s.(error := Some(DeleteFailed))
  }

  /** Deleting the same id twice leaves the same list as deleting it once. */
  lemma DeleteTwiceSameList(s: State, id: Option<string>)
    ensures HandleDelete(HandleDelete(s, id, Ok(())), id, Ok(())).papers == HandleDelete(s, id, Ok(())).papers
  {
    FilterIdempotent(s.papers, (p: Paper) => Some(p.id) != id);
  }

  /** Deleting an id no paper has keeps the whole list. */
  lemma DeleteUnknownKeepsAll(s: State, id: string)
    requires forall i :: 0 <= i < |s.papers| ==> s.papers[i].id != id
    ensures HandleDelete(s, Some(id), Ok(())).papers == s.papers
  {
    FilterKeepsAll(s.papers, (p: Paper) => Some(p.id) != Some(id));
  }

  /** The delete button of a paper: remember its id and open the dialog. */
  function RequestDelete(s: State, id: string): (t: State)
    ensures t.deleteOpen && t.paperToDelete == Some(id)
    ensures t == s.(deleteOpen := true, paperToDelete := Some(id))
  {
    s.(deleteOpen := true, paperToDelete := Some(id))
  }

  /** Cancel closes the dialog and deletes nothing. */
  function CancelDelete(s: State): (t: State)
    ensures !t.deleteOpen && t.papers == s.papers && t.paperToDelete == s.paperToDelete
    ensures t == s.(deleteOpen := false)
  {
    s.(deleteOpen := false)
  }

  /** Confirm deletes the remembered paper and closes the dialog. */
  function ConfirmDelete(s: State, outcome: Fetch<()>): (t: State)
    ensures !t.deleteOpen
    ensures t.papers == HandleDelete(s, s.paperToDelete, outcome).papers
    ensures outcome.Err? ==> t == s.(error := Some(DeleteFailed), deleteOpen := false)
    ensures outcome.Ok? ==> t == s.(papers := t.papers, successMessage := Deleted, deleteOpen := false)
  {
    HandleDelete(s, s.paperToDelete, outcome).(deleteOpen := false)
  }

  /** Asking to delete a paper and confirming removes exactly the papers with its id. */
  lemma ConfirmRemovesRequested(s: State, id: string)
    ensures var t := ConfirmDelete(RequestDelete(s, id), Ok(()));
      !t.deleteOpen && t.papers == Filter(s.papers, (p: Paper) => p.id != id)
  {
    FilterExtensional(s.papers, (p: Paper) => Some(p.id) != Some(id), (p: Paper) => p.id != id);
  }

  /** `handleEditSubmit`: a failed update shows its message and keeps the modal open; a
      successful one refetches the list (whose failure shows the fetch message) and closes it. */
  function HandleEditSubmit(s: State, update: Fetch<()>, refetch: Fetch<seq<Paper>>): (t: State)
    ensures update.Err? ==> t == s.(error := Some(UpdateFailed))
    ensures update.Ok? ==> !t.modalOpen
    ensures update.Ok? && refetch.Ok? ==> t.papers == refetch.value && t.error == s.error
    ensures update.Ok? && refetch.Err? ==> t.papers == s.papers && t.error == Some(FetchFailed)
    // only the list, the error and the modal flag can change; the edited paper stays selected
    ensures update.Ok? ==> t == s.(papers := t.papers, error := t.error, modalOpen := false)
  {
    match update
    case Err(_) => s.(error := Some(UpdateFailed))
    case Ok(_) => FetchUserPapers(s, refetch).(modalOpen := false)
  }
}

=== FILE: seqs.dfy ===
/** Order-preserving filtering and first-match search over sequences, as `Array.prototype.filter`
    and `Array.prototype.find` behave. */
module Seqs {
  import opened Js

  /** `a` can be obtained from `b` by deleting elements, keeping the order of the rest. */
  predicate IsSubsequence<T(==)>(a: seq<T>, b: seq<T>)
    decreases |b|
  {
    if |a| == 0 then true
    else if |b| == 0 then false
    else (a[0] == b[0] && IsSubsequence(a[1..], b[1..])) || IsSubsequence(a, b[1..])
  }

  /** `s.filter(f)`. */
  function Filter<T(==)>(s: seq<T>, f: T -> bool): (r: seq<T>)
    ensures |r| <= |s|
    ensures forall i :: 0 <= i < |r| ==> r[i] in s && f(r[i])
    ensures forall i :: 0 <= i < |s| && f(s[i]) ==> s[i] in r
    ensures IsSubsequence(r, s)
    // every passing element is kept as often as it occurs, and no other element is
    ensures multiset(r) <= multiset(s)
    ensures forall i :: 0 <= i < |s| && f(s[i]) ==> multiset(r)[s[i]] == multiset(s)[s[i]]
  {
    if |s| == 0 then []
    else
      assert s == [s[0]] + s[1..];
      if f(s[0]) then [s[0]] + Filter(s[1..], f)
      else Filter(s[1..], f)
  }

  /** Index of the first element satisfying `f`, as `s.find(f)` locates it. */
  function FindFirst<T>(s: seq<T>, f: T -> bool): (r: Option<nat>)
    ensures r.Some? ==> r.value < |s| && f(s[r.value])
    ensures r.Some? ==> forall j :: 0 <= j < r.value ==> !f(s[j])
    ensures r.None? ==> forall j :: 0 <= j < |s| ==> !f(s[j])
  {
    if |s| == 0 then None
    else if f(s[0]) then Some(0)
    else match FindFirst(s[1..], f)
      case None => None
      case Some(i) => Some(i + 1)
  }

  /** Subsequence of a tail is a subsequence of the whole. */
  lemma SubsequenceWeaken<T>(a: seq<T>, b: seq<T>)
    requires |b| > 0 && IsSubsequence(a, b[1..])
    ensures IsSubsequence(a, b)
  {
  }

  /** Deleting elements twice is deleting elements once. */
  lemma {:induction false} SubsequenceTransitive<T>(a: seq<T>, b: seq<T>, c: seq<T>)
    requires IsSubsequence(a, b) && IsSubsequence(b, c)
    ensures IsSubsequence(a, c)
    decreases |c|
  {
    if |a| == 0 {
    } else if |c| == 0 {
    } else if b[0] == c[0] && IsSubsequence(b[1..], c[1..]) {
      if a[0] == b[0] && IsSubsequence(a[1..], b[1..]) {
        SubsequenceTransitive(a[1..], b[1..], c[1..]);
      } else {
        SubsequenceTransitive(a, b[1..], c[1..]);
      }
    } else {
      SubsequenceTransitive(a, b, c[1..]);
    }
  }

  /** Filtering distributes over concatenation; with `Filter([x], f)` this pins `Filter` down completely. */
  lemma {:induction false} FilterConcat<T>(a: seq<T>, b: seq<T>, f: T -> bool)
    ensures Filter(a + b, f) == Filter(a, f) + Filter(b, f)
  {
    if |a| == 0 {
      assert a + b == b;
    } else {
      assert (a + b)[1..] == a[1..] + b;
      FilterConcat(a[1..], b, f);
    }
  }

  /** Filtering an already filtered sequence with the same predicate changes nothing. */
  lemma {:induction false} FilterIdempotent<T>(s: seq<T>, f: T -> bool)
    ensures Filter(Filter(s, f), f) == Filter(s, f)
  {
    if |s| > 0 {
      FilterIdempotent(s[1..], f);
      if f(s[0]) {
        assert ([s[0]] + Filter(s[1..], f))[1..] == Filter(s[1..], f);
      }
    }
  }

  /** A predicate that holds everywhere keeps every element. */
  lemma {:induction false} FilterKeepsAll<T>(s: seq<T>, f: T -> bool)
    requires forall x :: x in s ==> f(x)
    ensures Filter(s, f) == s
  {
    if |s| > 0 {
      assert forall x :: x in s[1..] ==> x in s;
      FilterKeepsAll(s[1..], f);
    }
  }

  /** A predicate that holds nowhere keeps nothing. */
  lemma FilterKeepsNone<T>(s: seq<T>, f: T -> bool)
    requires forall x :: x in s ==> !f(x)
    ensures Filter(s, f) == []
  {
  }

  /** Two successive filters equal one filter by the conjunction. */
  lemma {:induction false} FilterFilter<T>(s: seq<T>, f: T -> bool, g: T -> bool, h: T -> bool)
    requires forall x :: h(x) == (f(x) && g(x))
    ensures Filter(Filter(s, f), g) == Filter(s, h)
  {
    if |s| > 0 {
      FilterFilter(s[1..], f, g, h);
      if f(s[0]) {
        assert ([s[0]] + Filter(s[1..], f))[1..] == Filter(s[1..], f);
      }
    }
  }

  /** No element occurs twice. */
  predicate Distinct<T(==)>(s: seq<T>) {
    forall i, j :: 0 <= i < j < |s| ==> s[i] != s[j]
  }

  /** The tail of a sequence without repetitions has none either, and misses the head. */
  lemma DistinctTail<T>(s: seq<T>)
    requires |s| > 0 && Distinct(s)
    ensures Distinct(s[1..]) && s[0] !in s[1..]
  {
    forall i, j | 0 <= i < j < |s[1..]|
      ensures s[1..][i] != s[1..][j]
    {
      assert s[1..][i] == s[i + 1] && s[1..][j] == s[j + 1];
    }
    assert forall k :: 0 <= k < |s[1..]| ==> s[1..][k] == s[k + 1] != s[0];
  }

  /** Putting a new element in front of a sequence without repetitions creates none. */
  lemma DistinctCons<T>(x: T, rest: seq<T>)
    requires Distinct(rest) && x !in rest
    ensures Distinct([x] + rest)
  {
    forall i, j | 0 <= i < j < |[x] + rest|
      ensures ([x] + rest)[i] != ([x] + rest)[j]
    {
      if i > 0 {
        assert ([x] + rest)[i] == rest[i - 1] && ([x] + rest)[j] == rest[j - 1];
      } else {
        assert ([x] + rest)[j] == rest[j - 1];
      }
    }
  }

  /** Filtering a sequence without repetitions cannot create one. */
  lemma {:induction false} FilterKeepsDistinct<T>(s: seq<T>, f: T -> bool)
    requires Distinct(s)
    ensures Distinct(Filter(s, f))
  {
    if |s| > 0 {
      DistinctTail(s);
      FilterKeepsDistinct(s[1..], f);
      if f(s[0]) {
        var rest := Filter(s[1..], f);
        assert s[0] !in rest;
        DistinctCons(s[0], rest);
      }
    }
  }

  /** Filters by predicates that agree everywhere agree. */
  lemma {:induction false} FilterExtensional<T>(s: seq<T>, f: T -> bool, g: T -> bool)
    requires forall x :: f(x) == g(x)
    ensures Filter(s, f) == Filter(s, g)
  {
    if |s| > 0 {
      FilterExtensional(s[1..], f, g);
    }
  }
}

=== FILE: sidebar.dfy ===
/** The category sidebar of the browse page: one clickable entry per category. */
module Sidebar {
  import opened Js

  /** A category entry as the browse page builds it: `{_id, category, category_id}`. */
  datatype Entry = Entry(key: string, caption: Option<string>, categoryId: Option<string>)

  /** One rendered list item. */
  datatype Item = Item(key: string, caption: Option<string>, highlighted: bool)

  /** An entry is highlighted when the selection strictly equals its `category_id`; two absent
      values are strictly equal, so an entry without `category_id` is highlighted under an
      absent selection. */
  predicate Highlighted(selected: Option<string>, e: Entry) {
    selected == e.categoryId
  }

  /** The rendered list: one item per entry, in order, labelled by the entry's `category`. */
  function Render(entries: seq<Entry>, selected: Option<string>): (items: seq<Item>)
    ensures |items| == |entries|
    ensures forall i :: 0 <= i < |items| ==>
      items[i].key == entries[i].key && items[i].caption == entries[i].caption
    ensures forall i :: 0 <= i < |items| ==> (items[i].highlighted <==> Highlighted(selected, entries[i]))
  {
    if |entries| == 0 then []
    else
      var first := Item(entries[0].key, entries[0].caption, Highlighted(selected, entries[0]));
      [first] + Render(entries[1..], selected)
  }

  /** Clicking the `i`-th rendered entry sets the selection to that entry's `category_id`. */
  function Click(entries: seq<Entry>, i: nat): (selected: Option<string>)
    requires i < |entries|
    ensures Highlighted(selected, entries[i])
    ensures forall j :: 0 <= j < |entries| ==>
      (Highlighted(selected, entries[j]) <==> entries[j].categoryId == entries[i].categoryId)
  {
    entries[i].categoryId
  }
}

=== FILE: singlepage.dfy ===
/** The paper page: it renders the data hook's state as a spinner, an error, the not-found
    notice or the detail card followed by a document preview and the tag list. */
module SinglePage {
  import opened Js
  import opened Text
  import opened Entities
  import opened FileLinks
  import PaperData
  import PaperDetails

  /** The preview link: empty when there is no paper or it has no `file_url`, else the resolved link. */
  function ResolvedFileUrl(base: string, paper: Option<Paper>): (url: string)
    ensures paper.None? || !Truthy(paper.value.fileUrl) ==> url == ""
    ensures paper.Some? && Truthy(paper.value.fileUrl) ==> url == Resolve(base, paper.value.fileUrl.value)
    // an absolute `file_url` is linked as it is
    ensures paper.Some? && Truthy(paper.value.fileUrl) && StartsWith(paper.value.fileUrl.value, "http") ==>
      url == paper.value.fileUrl.value
  {
    if paper.None? || !Truthy(paper.value.fileUrl) then "" else Resolve(base, paper.value.fileUrl.value)
  }

  /** Resolution never turns a file into nothing: the link is empty exactly when the paper has no file. */
  lemma ResolvedEmptyIffNoFile(base: string, paper: Option<Paper>)
    ensures ResolvedFileUrl(base, paper) == "" <==> paper.None? || !Truthy(paper.value.fileUrl)
  {
    if paper.Some? && Truthy(paper.value.fileUrl) {
      var f := paper.value.fileUrl.value;
      if !StartsWith(f, "http") {
        match IndexOf(f, LegacyUploads)
        case None =>
        case Some(i) =>
          assert |ReplaceFirst(f, LegacyUploads, PublicUploads)| >= |PublicUploads|;
      }
    }
  }

  /** What the document-preview area shows. */
  datatype Preview =
    | NoFile
    | PdfViewer(url: string)
    | WordDownload(url: string, fileName: Option<string>)
    | FileDownload(url: string)

  /** An empty link shows "No file available for preview"; otherwise the extension decides,
      ".pdf" first, then ".doc" or ".docx", and anything else gets a plain download link. */
  function PreviewFor(url: string, fileName: Option<string>): (v: Preview)
    ensures v == NoFile <==> url == ""
    ensures v.PdfViewer? <==> url != "" && EndsWith(url, ".pdf")
    ensures v.WordDownload? <==> url != "" && !EndsWith(url, ".pdf") && (EndsWith(url, ".doc") || EndsWith(url, ".docx"))
    ensures v.WordDownload? ==> v.fileName == fileName
    ensures !v.NoFile? ==> v.url == url
  {
    if url == "" then NoFile
    else if EndsWith(url, ".pdf") then PdfViewer(url)
    else if EndsWith(url, ".doc") || EndsWith(url, ".docx") then WordDownload(url, fileName)
    else FileDownload(url)
  }

  /** The tag section: absent for a missing or empty list, else "#tag" per tag. The chip
      colours are drawn at random and are not modelled. */
  function TagsSection(tags: Option<seq<string>>): (chips: Option<seq<string>>)
    ensures chips.None? <==> tags.None? || |tags.value| == 0
    ensures chips.Some? ==> |chips.value| == |tags.value|
    ensures chips.Some? ==> forall k :: 0 <= k < |chips.value| ==> chips.value[k] == "#" + tags.value[k]
  {
    if tags.None? || |tags.value| == 0 then None
    else Some(seq(|tags.value|, k requires 0 <= k < |tags.value| => "#" + tags.value[k]))
  }

  const PaperNotFound := "Paper not found"

  datatype Screen =
    | Spinner
    | ErrorWithRetry(message: string)
    | NotFound(message: string)
    | Details(card: PaperDetails.View, preview: Preview, tags: Option<seq<string>>)

  /** Loading wins over an error, an error over a missing paper; only a loaded paper without
      an error reaches the detail card. */
  function Render(base: string, s: PaperData.State): (v: Screen)
    ensures s.loading <==> v == Spinner
    ensures !s.loading && Truthy(s.error) <==> v.ErrorWithRetry?
    ensures v.ErrorWithRetry? ==> v.message == s.error.value
    ensures !s.loading && !Truthy(s.error) && s.paper.None? <==> v == NotFound(PaperNotFound)
    ensures v.Details? <==> !s.loading && !Truthy(s.error) && s.paper.Some?
    ensures v.Details? ==> v.preview == PreviewFor(ResolvedFileUrl(base, s.paper), s.paper.value.name)
    ensures v.Details? ==> v.tags == TagsSection(s.paper.value.tags)
    // the card is labelled with the name the category lookup finds for the loaded paper
    ensures v.Details? ==> v.card == PaperDetails.Render(base, s.paper.value,
      PaperData.CategoryName(s.paper, s.categories), s.users)
  {
    if s.loading then Spinner
    else if Truthy(s.error) then ErrorWithRetry(s.error.value)
    else if s.paper.None? then NotFound(PaperNotFound)
    else
      var p := s.paper.value;
      Details(
        PaperDetails.Render(base, p, PaperData.CategoryName(s.paper, s.categories), s.users),
        PreviewFor(ResolvedFileUrl(base, s.paper), p.name),
        TagsSection(p.tags))
  }

  /** The preview says "No file available" exactly when the paper has no `file_url`. */
  lemma NoFileIffNoFileUrl(base: string, p: Paper, categories: seq<Category>, users: seq<Account>)
    ensures Render(base, PaperData.State(Some(p), categories, users, false, None)).preview == NoFile
      <==> !Truthy(p.fileUrl)
  {
    ResolvedEmptyIffNoFile(base, Some(p));
  }

  /** A stored PDF, legacy path or not, opens in the PDF viewer. */
  lemma PdfPaperGetsViewer(base: string, p: Paper, categories: seq<Category>, users: seq<Account>)
    requires p.fileUrl.Some? && EndsWith(p.fileUrl.value, ".pdf")
    ensures Render(base, PaperData.State(Some(p), categories, users, false, None)).preview.PdfViewer?
  {
    ResolveKeepsExtension(base, p.fileUrl.value, ".pdf");
  }

  /** A stored ".docx" file gets the Word download link. */
  lemma WordPaperGetsDownload(base: string, p: Paper, categories: seq<Category>, users: seq<Account>)
    requires p.fileUrl.Some? && EndsWith(p.fileUrl.value, ".docx")
    ensures Render(base, PaperData.State(Some(p), categories, users, false, None)).preview.WordDownload?
  {
    var url := ResolvedFileUrl(base, Some(p));
    ResolveKeepsExtension(base, p.fileUrl.value, ".docx");
    assert url[|url| - 1] == 'x';
  }

  /** A `null` category body hides a paper that loaded: the page shows the `TypeError` of the
      `.length` read with a retry button instead of the card. */
  lemma NullCategoriesShowError(base: string, id: string, p: Paper, users: Fetch<Json<Account>>)
    requires id != ""
    ensures Render(base, PaperData.FetchData(PaperData.Initial, Some(id), Ok(Nullish(true)), Ok(Some(p)), users).state)
      == ErrorWithRetry("Cannot read properties of null (reading 'length')")
  {
    PaperData.NullCategoriesFailAfterPaper(PaperData.Initial, id, p, users);
  }

  /** A paper id the backend does not know ends on the error screen with the not-found message. */
  lemma UnknownPaperShowsError(base: string, id: string, cats: Fetch<Json<Category>>,
                               e: HttpError, users: Fetch<Json<Account>>)
    requires id != "" && e.status == Some(404)
    ensures Render(base, PaperData.FetchData(PaperData.Initial, Some(id), cats, Err(e), users).state)
      == ErrorWithRetry(PaperData.NotFoundMessage)
  {
  }
}

=== FILE: submit.dfy ===
/** The submission form: a tag list built from a text box, an ordered validation chain, the
    upload payload, and what a successful or failed upload does to the fields. */
module Submit {
  import opened Js
  import opened Text
  import opened Seqs

  /** The chosen file: only its MIME type matters to the form. */
  datatype File = File(name: string, mimeType: string)

  datatype Form = Form(
    file: Option<File>,
    title: string,
    description: string,
    category: string,
    tags: seq<string>,
    tagInput: string,
    coauthors: string,
    meta: string,
    error: string,
    success: string,
    selectedCoauthors: seq<string>,
    successPopup: bool)

  const Initial := Form(None, "", "", "", [], "", "", "", "", "", [], false)

  // ---------------------------------------------------------------- tags

  /** The tag list the form keeps: no repeats, no empty tag, no space at either end of a tag. */
  predicate TagsWellFormed(tags: seq<string>) {
    Distinct(tags) && forall i :: 0 <= i < |tags| ==> tags[i] != "" && Trimmed(tags[i])
  }

  lemma InitialTagsWellFormed()
    ensures TagsWellFormed(Initial.tags)
  {
  }

  /** The keys that commit the tag box. */
  predicate CommitKey(key: string) {
    key == "Enter" || key == ","
  }

  /** A key press in the tag box. Enter or "," commits the trimmed text when it is non-empty and
      not yet a tag, and clears the box; any other outcome leaves the form as it was. */
  function TagKeyDown(f: Form, key: string): (g: Form)
    ensures g == f || g == f.(tags := f.tags + [Trim(f.tagInput)], tagInput := "")
    ensures |g.tags| != |f.tags| <==> CommitKey(key) && Trim(f.tagInput) != "" && Trim(f.tagInput) !in f.tags
  {
    if CommitKey(key) then
      var newTag := Trim(f.tagInput);
      if newTag != "" && newTag !in f.tags then f.(tags := f.tags + [newTag], tagInput := "")
      else f
    else f
  }

  /** Appending a new, non-empty, trimmed tag keeps the list well formed. */
  lemma AppendKeepsWellFormed(tags: seq<string>, t: string)
    requires TagsWellFormed(tags) && t != "" && Trimmed(t) && t !in tags
    ensures TagsWellFormed(tags + [t])
  {
    var longer := tags + [t];
    forall i, j | 0 <= i < j < |longer|
      ensures longer[i] != longer[j]
    {
      assert longer[i] == tags[i];
      if j < |tags| {
        assert longer[j] == tags[j];
      }
    }
  }

  /** A key press keeps the tag list well formed. */
  lemma TagKeyDownKeepsWellFormed(f: Form, key: string)
    requires TagsWellFormed(f.tags)
    ensures TagsWellFormed(TagKeyDown(f, key).tags)
  {
    var t := Trim(f.tagInput);
    if CommitKey(key) && t != "" && t !in f.tags {
      AppendKeepsWellFormed(f.tags, t);
    }
  }

  /** Typing a tag that is already listed and committing it changes nothing: the list keeps one
      copy and the text stays in the box. */
  lemma DuplicateTagKept(f: Form, key: string)
    requires Trim(f.tagInput) in f.tags
    ensures TagKeyDown(f, key) == f
  {
  }

  /** Committing the same text twice lists it once: the second commit is a no-op. */
  lemma CommitTwiceListsOnce(f: Form, text: string)
    requires Trim(text) != "" && Trim(text) !in f.tags
    ensures var once := TagKeyDown(f.(tagInput := text), "Enter");
      once.tags == f.tags + [Trim(text)]
      && TagKeyDown(once.(tagInput := text), ",").tags == once.tags
  {
    var once := TagKeyDown(f.(tagInput := text), "Enter");
    assert once.tags[|f.tags|] == Trim(text);
    DuplicateTagKept(once.(tagInput := text), ",");
  }

  /** Removing a tag drops every entry equal to it and keeps the others in their order. */
  function RemoveTag(f: Form, tag: string): (g: Form)
    ensures g == f.(tags := g.tags)
    ensures tag !in g.tags
    ensures forall i :: 0 <= i < |f.tags| && f.tags[i] != tag ==> f.tags[i] in g.tags
    ensures IsSubsequence(g.tags, f.tags)
    ensures TagsWellFormed(f.tags) ==> TagsWellFormed(g.tags)
  {
    var kept := Filter(f.tags, (t: string) => t != tag);
    if TagsWellFormed(f.tags) then
      FilterKeepsDistinct(f.tags, (t: string) => t != tag);
      f.(tags := kept)
    else f.(tags := kept)
  }

  /** Removing a tag that is not listed changes nothing. */
  lemma RemoveAbsentTag(f: Form, tag: string)
    requires tag !in f.tags
    ensures RemoveTag(f, tag) == f
  {
    FilterKeepsAll(f.tags, (t: string) => t != tag);
  }

  /** Adding a tag and then removing it restores the previous list. */
  lemma RemoveUndoesCommit(f: Form, key: string)
    requires CommitKey(key) && Trim(f.tagInput) != "" && Trim(f.tagInput) !in f.tags
    ensures RemoveTag(TagKeyDown(f, key), Trim(f.tagInput)).tags == f.tags
  {
    var t := Trim(f.tagInput);
    var keep := (x: string) => x != t;
    FilterConcat(f.tags, [t], keep);
    FilterKeepsAll(f.tags, keep);
    assert Filter([t], keep) == [];
  }

  // ---------------------------------------------------------------- validation

  const TitleMessage := "Title must be at least 3 characters long."
  const DescriptionMessage := "Description must be at least 20 characters long."
  const NoFileMessage := "Please select a file to upload."
  const FileTypeMessage := "Invalid file type. Only PDF, DOC, and DOCX are allowed."
  const UploadFailedMessage := "Failed to upload the file. Please try again."

  const MinDescription := 20
  const ValidFileTypes := [
    "application/pdf",
    "application/msword",
    "application/vnd.openxmlformats-officedocument.wordprocessingml.document"
  ]

  /** The title check reads the `length` of the `trim` method itself, which is its arity, 0. */
  const TrimArity := 0
  const TitleLimit := 15

  /** The first failing check's message. The title check compares the arity with 15 and so never
      fails; then a trimmed description under 20 characters, a missing file and a MIME type other
      than PDF, DOC or DOCX are rejected, in that order. */
  function Validate(f: Form): (err: Option<string>)
    ensures err != Some(TitleMessage)
    ensures |Trim(f.description)| < MinDescription ==> err == Some(DescriptionMessage)
    ensures |Trim(f.description)| >= MinDescription && f.file.None? ==> err == Some(NoFileMessage)
    ensures |Trim(f.description)| >= MinDescription && f.file.Some? && f.file.value.mimeType !in ValidFileTypes
      ==> err == Some(FileTypeMessage)
    ensures err.None? <==>
      |Trim(f.description)| >= MinDescription && f.file.Some? && f.file.value.mimeType in ValidFileTypes
  {
    if TrimArity > TitleLimit then Some(TitleMessage)
    else if |Trim(f.description)| < MinDescription then Some(DescriptionMessage)
    else if f.file.None? then Some(NoFileMessage)
    else if f.file.value.mimeType !in ValidFileTypes then Some(FileTypeMessage)
    else None
  }

  /** Any title passes, even an empty one or one of any length. */
  lemma TitleNeverChecked(f: Form, title: string)
    ensures Validate(f.(title := title)) == Validate(f)
  {
  }

  // ---------------------------------------------------------------- upload

  /** The multipart body: tags and the selected co-authors travel as arrays (their JSON text is
      not modelled), `coauthors` as typed is not sent. */
  datatype Payload = Payload(
    file: File,
    paperName: string,
    description: string,
    categoryId: string,
    tags: seq<string>,
    coauthors: seq<string>,
    meta: string)

  datatype Submission = Submission(form: Form, sent: Option<Payload>)

  /** A submit. The error and success texts are cleared first. A failed check sets its message and
      sends nothing. Otherwise the payload is sent and `upload` is its outcome: success resets the
      entered fields and raises the popup, failure shows the server's `error` or a fallback and
      keeps every field. */
  function HandleSubmit(f: Form, upload: Fetch<()>): (r: Submission)
    ensures Validate(f).Some? ==> r.sent.None? && r.form == f.(error := Validate(f).value, success := "")
    ensures Validate(f).None? ==> r.sent == Some(Payload(f.file.value, f.title, f.description,
      f.category, f.tags, f.selectedCoauthors, f.meta))
    ensures Validate(f).None? && upload.Ok? ==>
      && r.form.file.None? && r.form.title == "" && r.form.description == "" && r.form.category == ""
      && r.form.tags == [] && r.form.coauthors == "" && r.form.meta == ""
      && r.form.successPopup && r.form.error == "" && r.form.success == ""
      && r.form.selectedCoauthors == f.selectedCoauthors && r.form.tagInput == f.tagInput
    ensures Validate(f).None? && upload.Err? ==>
      r.form == f.(error := Or(upload.error.dataError, UploadFailedMessage), success := "")
  {
    var cleared := f.(error := "", success := "");
    match Validate(f)
    case Some(msg) => Submission(cleared.(error := msg), None)
    case None =>
      var payload := Payload(f.file.value, f.title, f.description, f.category, f.tags, f.selectedCoauthors, f.meta);
      match upload
      case Ok(_) =>
        Submission(cleared.(file := None, title := "", description := "", category := "", tags := [],
          coauthors := "", meta := "", successPopup := true), Some(payload))
      case Err(e) =>
        Submission(cleared.(error := Or(e.dataError, UploadFailedMessage)), Some(payload))
  }

  /** After a successful upload an immediate second submit is stopped by the description check
      and sends nothing. */
  lemma ResubmitAfterSuccessBlocked(f: Form, first: Fetch<()>, second: Fetch<()>)
    requires Validate(f).None? && first.Ok?
    ensures var again := HandleSubmit(HandleSubmit(f, first).form, second);
      again.sent.None? && again.form.error == DescriptionMessage
  {
  }

  /** After a failed upload, submitting again sends the very same payload. */
  lemma RetryAfterFailureResends(f: Form, first: Fetch<()>, second: Fetch<()>)
    requires Validate(f).None? && first.Err?
    ensures HandleSubmit(HandleSubmit(f, first).form, second).sent == HandleSubmit(f, first).sent
  {
  }

  /** The tag list survives a submit well formed, whatever the outcome. */
  lemma SubmitKeepsTagsWellFormed(f: Form, upload: Fetch<()>)
    requires TagsWellFormed(f.tags)
    ensures TagsWellFormed(HandleSubmit(f, upload).form.tags)
  {
  }
}

=== FILE: text.dfy ===
/** The JavaScript string operations the front-end uses: `toLowerCase`, `includes`, `startsWith`,
    `endsWith`, `replace` with a string pattern, `trim`, `split` on one character, `slice(-n)` and
    `charCodeAt`. A Dafny `string` holds Unicode code points; JavaScript strings hold UTF-16 code
    units, and `CodeUnits` converts between the two where the source sums character codes. */
module Text {
  import opened Js

  // ---------------------------------------------------------------- case

  /** Lower-casing of one character, restricted to ASCII letters. */
  function LowerChar(c: char): char {
    if 'A' <= c <= 'Z' then (c as int + 32) as char else c
  }

  /** `s.toLowerCase()` on the ASCII letters. */
  function ToLower(s: string): (r: string)
    ensures |r| == |s|
    ensures forall i :: 0 <= i < |s| ==> r[i] == LowerChar(s[i])
  {
    seq(|s|, i requires 0 <= i < |s| => LowerChar(s[i]))
  }

  lemma ToLowerIdempotent(s: string)
    ensures ToLower(ToLower(s)) == ToLower(s)
  {
  }

  // ---------------------------------------------------------------- search

  /** `pat` occurs in `s` starting at index `i`. */
  predicate OccursAt(s: string, pat: string, i: int) {
    0 <= i && i + |pat| <= |s| && s[i..i + |pat|] == pat
  }

  /** The first occurrence of `pat` in `s` at or after `from`. */
  function IndexFrom(s: string, pat: string, from: nat): (r: Option<nat>)
    ensures r.Some? ==> from <= r.value && OccursAt(s, pat, r.value)
    ensures r.Some? ==> forall j :: from <= j < r.value ==> !OccursAt(s, pat, j)
    ensures r.None? ==> forall j :: from <= j ==> !OccursAt(s, pat, j)
    decreases |s| - from
  {
    if from + |pat| > |s| then None
    else if s[from..from + |pat|] == pat then Some(from)
    else IndexFrom(s, pat, from + 1)
  }

  /** `s.indexOf(pat)`, with `None` for -1. */
  function IndexOf(s: string, pat: string): (r: Option<nat>)
    ensures r.Some? ==> OccursAt(s, pat, r.value)
    ensures r.Some? ==> forall j :: 0 <= j < r.value ==> !OccursAt(s, pat, j)
    ensures r.None? ==> forall j :: !OccursAt(s, pat, j)
  {
    IndexFrom(s, pat, 0)
  }

  /** `s.includes(pat)`. */
  predicate Contains(s: string, pat: string)
    ensures Contains(s, pat) <==> exists i :: OccursAt(s, pat, i)
  {
    IndexOf(s, pat).Some?
  }

  /** Every string contains the empty string. */
  lemma ContainsEmpty(s: string)
    ensures Contains(s, "")
  {
    assert OccursAt(s, "", 0);
  }

  predicate StartsWith(s: string, prefix: string) {
    |prefix| <= |s| && s[..|prefix|] == prefix
  }

  predicate EndsWith(s: string, suffix: string) {
    |suffix| <= |s| && s[|s| - |suffix|..] == suffix
  }

  /** `s.replace(pat, rep)` with a string pattern: only the first occurrence is replaced. */
  function ReplaceFirst(s: string, pat: string, rep: string): (r: string)
    ensures IndexOf(s, pat).None? ==> r == s
  {
    match IndexOf(s, pat)
    case None => s
    case Some(i) => s[..i] + rep + s[i + |pat|..]
  }

  // ---------------------------------------------------------------- trim

  /** The characters `String.prototype.trim` removes: the ECMAScript WhiteSpace and
      LineTerminator code points. */
  predicate IsSpace(c: char) {
    var n := c as int;
    n == 0x09 || n == 0x0A || n == 0x0B || n == 0x0C || n == 0x0D || n == 0x20
    || n == 0xA0 || n == 0x1680 || (0x2000 <= n <= 0x200A) || n == 0x2028 || n == 0x2029
    || n == 0x202F || n == 0x205F || n == 0x3000 || n == 0xFEFF
  }

  /** Neither end of `s` is a space. */
  predicate Trimmed(s: string) {
    |s| == 0 || (!IsSpace(s[0]) && !IsSpace(s[|s| - 1]))
  }

  function TrimStart(s: string): (r: string)
    ensures |r| <= |s| && r == s[|s| - |r|..]
    ensures |r| == 0 || !IsSpace(r[0])
    ensures forall k :: 0 <= k < |s| - |r| ==> IsSpace(s[k])
  {
    if |s| > 0 && IsSpace(s[0]) then
      var r := TrimStart(s[1..]);
      assert forall k :: 1 <= k < |s| - |r| ==> s[k] == s[1..][k - 1];
      r
    else s
  }

  function TrimEnd(s: string): (r: string)
    ensures |r| <= |s| && r == s[..|r|]
    ensures |r| == 0 || !IsSpace(r[|r| - 1])
    ensures forall k :: |r| <= k < |s| ==> IsSpace(s[k])
  {
    if |s| > 0 && IsSpace(s[|s| - 1]) then TrimEnd(s[..|s| - 1]) else s
  }

  /** `r` is `s[a..b]`, and everything outside that slice is a space. */
  predicate SpacesAround(s: string, r: string, a: int, b: int) {
    0 <= a <= b <= |s| && r == s[a..b]
    && (forall k :: 0 <= k < a ==> IsSpace(s[k])) && (forall k :: b <= k < |s| ==> IsSpace(s[k]))
  }

  /** `s.trim()`: the middle of `s` with only spaces cut off on either side, and no space left at
      either end; it is empty exactly when `s` consists of spaces only. */
  function Trim(s: string): (r: string)
    ensures |r| <= |s|
    ensures Trimmed(r)
    ensures r == "" <==> forall k :: 0 <= k < |s| ==> IsSpace(s[k])
    ensures exists a, b :: SpacesAround(s, r, a, b)
  {
    var t := TrimStart(s);
    var r := TrimEnd(t);
    assert |r| > 0 ==> r[0] == t[0];
    assert |t| > 0 ==> !IsSpace(s[|s| - |t|]);
    TrimSlices(s, t, r);
    r
  }

  /** The slice bounds of `Trim`: a space prefix cut off `s` leaves `t`, a space suffix cut off
      `t` leaves `r`, so `r` is a slice of `s` with spaces on both sides. */
  lemma TrimSlices(s: string, t: string, r: string)
    requires |t| <= |s| && t == s[|s| - |t|..] && forall k :: 0 <= k < |s| - |t| ==> IsSpace(s[k])
    requires |r| <= |t| && r == t[..|r|] && forall k :: |r| <= k < |t| ==> IsSpace(t[k])
    ensures SpacesAround(s, r, |s| - |t|, |s| - |t| + |r|)
  {
    var a := |s| - |t|;
    assert r == s[a..a + |r|];
    forall k | a + |r| <= k < |s|
      ensures IsSpace(s[k])
    {
      assert s[k] == t[k - a];
    }
  }

  /** Trimming a string that has no space at either end changes nothing. */
  lemma TrimOfTrimmed(s: string)
    requires Trimmed(s)
    ensures Trim(s) == s
  {
  }

  lemma TrimIdempotent(s: string)
    ensures Trim(Trim(s)) == Trim(s)
  {
    TrimOfTrimmed(Trim(s));
  }

  // ---------------------------------------------------------------- split

  /** Inverse of `Split`: the words glued together with the separator. */
  function Join(words: seq<string>, c: char): string
    requires |words| >= 1
    decreases |words|
  {
    if |words| == 1 then words[0] else words[0] + [c] + Join(words[1..], c)
  }

  lemma JoinPrepend(x: char, words: seq<string>, c: char)
    requires |words| >= 1
    ensures Join([[x] + words[0]] + words[1..], c) == [x] + Join(words, c)
  {
    var w := [[x] + words[0]] + words[1..];
    assert w[1..] == words[1..];
  }

  /** `s.split(c)` for a one-character separator: the separator never occurs in a word,
      consecutive separators give empty words, and joining the words back gives `s`. */
  function Split(s: string, c: char): (r: seq<string>)
    ensures |r| >= 1
    ensures forall k :: 0 <= k < |r| ==> c !in r[k]
    ensures Join(r, c) == s
  {
    if |s| == 0 then [""]
    else
      var rest := Split(s[1..], c);
      if s[0] == c then
        assert ([""] + rest)[1..] == rest;
        [""] + rest
      else
        JoinPrepend(s[0], rest, c);
        [[s[0]] + rest[0]] + rest[1..]
  }

  /** A string made of separators only splits into empty words. */
  lemma {:induction false} SplitOfSeparators(s: string, c: char)
    requires forall k :: 0 <= k < |s| ==> s[k] == c
    ensures forall k :: 0 <= k < |Split(s, c)| ==> Split(s, c)[k] == ""
  {
    if |s| > 0 {
      SplitOfSeparators(s[1..], c);
    }
  }

  /** A string without the separator splits into itself alone. */
  lemma {:induction false} SplitWithoutSeparator(s: string, c: char)
    requires c !in s
    ensures Split(s, c) == [s]
  {
    if |s| > 0 {
      assert c !in s[1..] by {
        assert forall k :: 0 <= k < |s[1..]| ==> s[1..][k] == s[k + 1];
      }
      SplitWithoutSeparator(s[1..], c);
      assert [s[0]] + s[1..] == s;
    }
  }

  // ---------------------------------------------------------------- slices and codes

  /** `s.slice(-n)`: the last `n` characters, or all of `s` when it is shorter. */
  function TakeLast(s: string, n: nat): (r: string)
    ensures |r| == if |s| <= n then |s| else n
    ensures r == s[|s| - |r|..]
  {
    if |s| <= n then s else s[|s| - n..]
  }

  /** The sum of the UTF-16 code units that encode `c`: one unit below U+10000, otherwise a
      high and a low surrogate. */
  function CodeUnits(c: char): nat {
    var n := c as int;
    if n < 0x10000 then n
    else (0xD800 + (n - 0x10000) / 0x400) + (0xDC00 + (n - 0x10000) % 0x400)
  }

  /** `s.split("").reduce((acc, ch) => acc + ch.charCodeAt(0), 0)`. */
  function CodeUnitSum(s: string): nat {
    if |s| == 0 then 0 else CodeUnits(s[0]) + CodeUnitSum(s[1..])
  }

  lemma {:induction false} CodeUnitSumConcat(a: string, b: string)
    ensures CodeUnitSum(a + b) == CodeUnitSum(a) + CodeUnitSum(b)
  {
    if |a| == 0 {
      assert a + b == b;
    } else {
      assert (a + b)[1..] == a[1..] + b;
      CodeUnitSumConcat(a[1..], b);
    }
  }
}
